=== FILE: README.md ===
# Session and artifact bookkeeping of the computer-agent demo app

This project models the bookkeeping core of `app.py`, the server of a web demo. In the demo, each
browser session drives an agent inside a remote desktop sandbox. The model covers:

- **The session registry.** These are `SANDBOXES` and `SANDBOX_METADATA`, one sandbox handle per
  session hash, with creation and last-access times:
  - `get_or_create_sandbox` reuses a handle younger than `SANDBOX_TIMEOUT` (300 s). Otherwise it
    replaces the handle and does not care whether the kill succeeds.
  - `cleanup_sandboxes` reclaims the sessions that have been idle for longer than the timeout
    and whose kill succeeds, with the exceptions described below.
- **The interaction tracker.** `INTERACTION_IDS_PER_SESSION_HASH` maps each session to the
  interaction ids in the order they were registered:
  - `interact_with_agent` registers each id;
  - `upload_interaction_logs` drains the ids whose `./tmp/<id>` folder exists and hands those
    folders to the upload.
- **The upload filter.** `upload_to_hf_and_remove` copies each folder into a staging directory
  when its `metadata.jsonl` names a task that is not one of `TASK_EXAMPLES`. It removes every
  input folder and then uploads the staging directory as one batch to the dataset
  `smolagents/computer-agent-logs-2`.
- **The consent gate and the record stream.**
  - The interaction id is `<session>_<whole seconds>`.
  - With consent, the folder `./tmp/<id>` is created and gets a task record. A terminal status
    record (`save_final_status`) is appended only when the run raised (see *Behaviour of the
    code as written*).

## Module layout

| Module | File | Contents |
|---|---|---|
| `Wrappers` | `Wrappers.dfy` | `Option`, `Result` and `NoDuplicates` |
| `Decimal` | `Decimal.dfy` | `str(int)` |
| `Paths` | `Paths.dfy` | `TMP_DIR`, `os.path.join` and `basename(normpath(...))` |
| `Records` | `Records.dfy` | errors, records, folders, the example filter and the record stream of one interaction |
| `InteractionIds` | `InteractionIds.dfy` | the interaction id |
| `Sessions` | `Sessions.dfy` | the registry as a value, and get-or-create and eviction as functions with their lemmas |
| `Upload` | `Upload.dfy` | the copy loop and the upload as functions, with their lemmas |
| `Tracker` | `Tracker.dfy` | registration, the drain's selections, and their lemmas |
| `Sweep` | `Sweep.dfy` | one session's cleanup, and an invariant that holds in whatever order the sweep visits sessions |
| `App` | `App.dfy` | the class `AppState` |

`AppState` holds the three dictionaries as `map` fields. It also holds:

- the folders under `./tmp/`;
- the batches the dataset has received;
- the handles whose `kill()` returned.

Every method of `AppState` is proved against the matching specification function: `Acquire`,
`UploadToHub`, `Reap`/`SweepInvariant`, `Track`, `StoreFolder`/`InteractionResult` and `Select`.

Time is a `nat` of whole seconds. `interact_with_agent` reads the clock twice, once for the
interaction id and once inside `get_or_create_sandbox`; the model takes both reads to fall in
the same second. Outcomes the code cannot see are boolean or set parameters:

- whether a kill succeeds;
- whether provisioning succeeds;
- whether `upload_folder` returns;
- how the agent run ends.

### Behaviour of the code as written

The model follows the code, including where the code does not do what its own shape or
messages suggest:

- **An empty upload is not a no-op.** Even with nothing to stage it still uploads an empty batch
  (`Upload.EmptyUploadSendsEmptyBatch`).
- **Originals are lost on an upload failure.** They are removed inside the copy loop before
  `upload_folder` runs (`Upload.UploadRemovesInputs`).
- **A retry is not idempotent.** Calling again with the same folders raises, because they no
  longer exist (`Upload.RetryAfterUploadRaises`).
- **The sweep passes a string where a list is expected.** `cleanup_sandboxes` hands the string
  `./tmp/<session>` to the upload. The upload therefore walks its characters, and the first
  character `"."` makes `rmtree` delete everything under the working directory and raise
  (`Upload.UploadOfPathStringWipes`, `Sweep.ReapCases`). As a result:
  - the first session visited whose folder still exists wipes `./tmp/` and is kept;
  - the wipe removes every other folder, so the idle sessions visited after it are reclaimed
    when their kill succeeds;
  - nothing is ever uploaded.
  
  A one-element list would remove and upload just that folder (`Upload.UploadOfOneFolder`).
- **The sweep never flushes the tracker.** It does not touch the interaction tracker.
- **A completed run records no status.** On a run that completes, `error_message` is read in
  the `finally` clause without ever having been bound. With consent, the status record is
  therefore never written and the request raises (`Records.CompletedRunRecordsNoStatus`,
  `Records.InteractionResult`). The `finally` clause calls `save_final_status`, whose
  `error_message` defaults to None (app.py:196), on every path (app.py:348-353), so every
  consented run was meant to end with one status record. That stream is
  `Records.IntendedRecords` (`Records.IntendedRecordsEndWithStatus`).
- **No locking.** Nothing is locked or serialised per session.

## Model

| member | source | states |
|---|---|---|
| App.AppState.constructor | app.py:41-48 | At start-up no session is registered and nothing is tracked; the folders already in `./tmp/` are kept, since it is only created when missing; the state invariant holds |
| App.AppState.GetOrCreateSandbox | app.py:125-166 | The new registry and the returned handle or error are those of `Sessions.Acquire`, and the registry stays consistent |
| App.AppState.CollectIdle | app.py:101-106 | Returns exactly the sessions whose last access is more than `SANDBOX_TIMEOUT` seconds ago |
| App.AppState.UploadToHfAndRemove | app.py:62-96 | The folders left, the batch appended to the dataset and the result are those of `Upload.UploadToHub` |
| App.AppState.ReapSession | app.py:108-122 | One session's cleanup changes registry, folders and uploads exactly as `Sweep.Reap` |
| App.AppState.CleanupSandboxes | app.py:99-122 | Nothing is uploaded. If no idle session owns a folder, exactly the idle sessions in `SANDBOXES` whose kill succeeds are evicted and the folders are untouched. Otherwise `./tmp/` is emptied and all of them but one session owning a folder are evicted |
| App.AppState.SaveFinalStatus | app.py:196-203 | Appends the status record as a new last line of `metadata.jsonl` and keeps the earlier lines; raises and changes nothing when the folder does not exist |
| App.AppState.TrackInteraction | app.py:260-262 | The tracker becomes `Tracker.Track` of the old one: the session is tracked, the id is in its list and the other sessions are unchanged |
| App.AppState.StoreInteraction | app.py:264-353 | The folders become `Records.StoreFolder` and the outcome is `Records.InteractionResult`: an empty task raises, and a consented completed run raises on the unbound `error_message` |
| App.AppState.InteractWithAgent | app.py:258-353 | The registry follows `Sessions.Acquire`. A provisioning failure changes neither the tracker nor the folders. Otherwise the id is tracked, the folder follows `StoreFolder`, and no batch is uploaded |
| App.AppState.DrainTracked | app.py:500-509 | Collects the data directories of the tracked ids whose folder exists, in tracking order, and leaves the list of ids without a folder |
| App.AppState.UploadInteractionLogs | app.py:499-511 | An untracked session raises and changes nothing. Otherwise the session keeps exactly its ids without a folder, and the folders, the dataset and the result are those of uploading the drained directories |
| Decimal.NatToString | app.py:193 | `str(n)` is a non-empty run of digits with no leading zero |
| Decimal.ParseNatToString | app.py:193 | Reading `str(n)` back gives `n` |
| Decimal.NatToStringInjective | app.py:193 | Different numbers have different decimal texts |
| InteractionIds.InteractionId | app.py:192-193 | The interaction id is never empty |
| InteractionIds.InteractionIdRoundTrip | app.py:192-193 | The session hash and the second can be recovered from the id, even when the hash holds underscores |
| InteractionIds.InteractionIdInjective | app.py:192-193 | Two submissions share an id exactly when they come from the same session in the same second |
| InteractionIds.InteractionIdHasNoSeparator | app.py:193 | A session hash without `/` gives an id without `/`, so its folder is a direct child of `./tmp/`; no id is `.` or `..` |
| Paths.DataDir | app.py:264 | The data directory of a non-empty name lies strictly inside `./tmp/` |
| Paths.DataDirInjective | app.py:264 | Two names share a data directory exactly when they are equal |
| Paths.StripTrailingSlashes | app.py:72 | Returns a prefix of the path from which only separators were cut, ending in no separator unless it is a lone `/`, and empty only for an empty path; the other rewrites of `normpath` are not modelled |
| Paths.LastComponent | app.py:72 | A basename holds no separator |
| Paths.BasenameOfDataDir | app.py:72-73 | The folder of an interaction is staged under the interaction id itself, for any id without `/` other than `.` and `..` |
| Records.ConsentedRecordsTaskReadBack | app.py:75-79 | The task record written at app.py:284-290 is the task the upload pass reads back, with or without the status record |
| Records.AppendKeepsFirstTask | app.py:196-203 | Appending a status line to a non-empty `metadata.jsonl` leaves the task read from it unchanged |
| Records.AppendLine | app.py:196-203 | The appended record is the last of at least two lines, and the earlier lines stay in front of it |
| Records.CompletedRunRecordsNoStatus | app.py:335-353 | A consented run that completes leaves only its task record: no status record at all |
| Records.FailedRunRecords | app.py:338-353 | A consented run that raises leaves the task record and then `failed` with the summary and the error text |
| Records.IntendedRecordsEndWithStatus | app.py:348-353 | With `error_message` bound on every path, each run would end with exactly one status record matching how it ended |
| Records.ConsentedFolderEligibleIff | app.py:79 | A consented folder is readable and is uploaded exactly when its task is not an example, with or without the status record |
| Records.StoreFolder | app.py:267-290 | With consent the interaction's folder exists afterwards. Without consent the set of folders is unchanged. Every other folder is unchanged |
| Records.InteractionResultMatchesFolder | app.py:273-353 | With consent, a normal return leaves the folder ending in a status record with the returned status, and a raise after a non-empty task leaves it with no status record; without consent no folder changes |
| Records.StoredFolderEligible | app.py:284-290 | A consented interaction leaves a readable folder that is uploaded exactly when its task is not an example; after a completed run it holds only the task record |
| Records.AppendToMissingFileUnreadable | app.py:196-203 | Appending a status where no `metadata.jsonl` exists leaves a folder the upload pass cannot read |
| Sessions.AcquireReuses | app.py:128-136 | A young entry returns the stored handle. It sets `last_accessed` to now, keeps `created_at` and creates nothing |
| Sessions.AcquireReplaces | app.py:140-166 | An expired or missing entry gets the next handle from the counter, so a handle above every handle ever issued. It is stamped with now for both times, whether or not the stale kill succeeded. A provisioning failure leaves both maps as they were |
| Sessions.AcquireIsolation | app.py:125-166 | Every other session keeps its handle and its timestamps |
| Sessions.AcquireKeepsValid | app.py:161-165 | The two maps stay in step and every handle comes from the counter |
| Sessions.AcquireKeepsDistinct | app.py:148-161 | No two sessions ever share a handle |
| Sessions.AcquireThenReuse | app.py:128-166 | After a successful call the session is reusable, and a later call inside the creation window returns the same handle |
| Sessions.EvictKeepsValid | app.py:117-119 | Eviction removes the evicted sessions from both maps, leaves every other session untouched and keeps the registry consistent |
| Sessions.EvictSparesOthers | app.py:117-119 | Evicting sessions kills no handle held by a session that stays |
| Sessions.ReapableAreIdle | app.py:104-109 | A session the sweep may reclaim is registered and idle for longer than the timeout |
| Sessions.EvictStep | app.py:108-119 | Evicting sessions one at a time is evicting them all at once |
| Sessions.KillableStep | app.py:109-118 | One more visited session joins the killable ones exactly when it is registered and its kill succeeds |
| Sessions.WithFolderStep | app.py:109-113 | One more visited session joins those owning a folder exactly when it is registered and its folder exists |
| Sweep.ReapCases | app.py:109-122 | When every folder lies inside `./tmp/`, one session's cleanup skips it, wipes `./tmp/` and keeps it, keeps it, or evicts it |
| Sweep.SweepStart | app.py:108 | Before any session is visited the sweep invariant holds with nothing evicted |
| Sweep.SweepStep | app.py:108-122 | Cleaning one more session, in any order, keeps the sweep invariant |
| Sweep.SweepStepInsideTmp | app.py:108-122 | The same step, once the cleanup's effect is known |
| Sweep.SweepStepFresh | app.py:108-122 | Before any folder was wiped, the next session is skipped, evicted, or becomes the one kept after wiping `./tmp/` |
| Sweep.SweepStepStuck | app.py:108-122 | After `./tmp/` was wiped, the next session is skipped, kept or evicted, and nothing else changes |
| Sweep.SweepEnd | app.py:99-122 | After every idle session is visited the registry is consistent, and the evicted sessions are as `CleanupSandboxes` states |
| Tracker.Register | app.py:262 | A new id goes last, a known one keeps its place, and the list stays free of repeats |
| Tracker.Track | app.py:260-262 | The session becomes tracked, its list gains the id and keeps its old ids in order, and every other session is unchanged |
| Tracker.SelectMembers | app.py:501-509 | An id is drained exactly when it is tracked and its folder exists; it stays exactly when it is tracked and has no folder |
| Tracker.SelectPartition | app.py:501-509 | The drained ids and the ids that stay make up the tracked ids exactly, counting repeats |
| Tracker.SelectNoDuplicates | app.py:507-509 | Both selections are free of repeats when the tracked ids are |
| Tracker.DataDirsAt | app.py:504-506 | The k-th collected directory is the k-th drained id's |
| Tracker.WithoutMiddle | app.py:507-509 | Deleting an id that occurs once removes only that id and keeps the order of the rest |
| Tracker.DrainStep | app.py:501-509 | Deleting the current id leaves the ids kept so far followed by the ids not yet visited |
| Tracker.DrainTake | app.py:504-509 | Visiting an id with a folder collects its directory and deletes it from the list |
| Tracker.DrainKeep | app.py:504-506 | Visiting an id without a folder collects nothing and keeps it |
| Tracker.DrainedNotPassedAgain | app.py:499-511 | A drained id is never drained again by a later call, whatever folders are removed in between |
| Tracker.DrainStagingSucceeds | app.py:499-511 | Drained directories of distinct ids that hold no separator and are not `.` or `..`, with readable folders, are accepted by the copy loop |
| Tracker.UnconsentedNeverDrained | app.py:267-268 | Without consent an interaction gets no folder, so it is never drained or uploaded and stays tracked |
| Upload.CanStageStep | app.py:71-84 | The copy loop's success condition, one folder at a time |
| Upload.StageSucceedsIff | app.py:71-84 | The copy loop raises nothing exactly when the paths are distinct readable folders and the copied ones have distinct basenames |
| Upload.StageRemovesInputs | app.py:71-84 | After a copy loop that gets through, every input folder existed and is gone, and nothing else is removed |
| Upload.StageCollects | app.py:71-81 | The staging directory holds, under its basename, exactly the input folders whose task is not an example |
| Upload.StageOnlyRemoves | app.py:71-84 | Whatever the copy loop raises, it creates no folder and changes no folder's contents |
| Upload.UploadRemovesInputs | app.py:62-96 | Every input folder is removed, even when `upload_folder` fails. On success exactly the non-example folders are uploaded and the message counts every input |
| Upload.EmptyUploadSendsEmptyBatch | app.py:65-96 | An empty input still uploads an empty batch and reports 0 folders |
| Upload.RetryAfterUploadRaises | app.py:83 | Uploading the same non-empty list again raises, because its folders are gone |
| Upload.CharPaths | app.py:114 | Iterating a path string yields as many paths as the string has characters |
| Upload.UploadOfPathStringWipes | app.py:112-114 | Handing the data-directory string to the upload deletes every folder, uploads nothing and raises |
| Upload.UploadOfOneFolder | app.py:62-96 | Handing a readable data directory as a one-element list removes exactly that folder, and succeeds when `upload_folder` does |

## Left out

- The sandbox service is left out: `Sandbox(...)`, `stream.start`, the browser setup command and
  `get_url`. A handle is a fresh number from a counter. Provisioning and kill success are inputs.
  A sandbox created just before a later setup step raises is not recorded as leaked.
- Hub access is left out: `login`, `upload_folder` and `tempfile`. An upload either returns or
  raises, and the staging directory is a map that is never itself stored in `./tmp/`.
- File contents and JSON are left out. A folder is its `metadata.jsonl` as a list of records,
  and folder contents other than that file are not modelled. Paths are flat strings.
  `os.path.join` is concatenation; an absolute interaction id would make the real join discard
  `./tmp/`, and the model does not capture that.
- `rmtree(".")` also deletes the program's own files. The model records only that every
  interaction folder is gone and the call raises.
- The agent run, screenshots, chat streaming, the summary text, the interrupt button and the
  rest of the UI wiring are left out. How the run ends and its summary are parameters.
- `update_html`, `extract_browser_uuid`, `gradio_script.py` and `scripts_and_styling.py` are not
  part of this model.
- Concurrency is left out: the one-shot `Timer`, concurrent requests, and the races between the
  sweep and get-or-create. Calls are sequential.
- Paths.StripTrailingSlashes: `os.path.normpath` also drops `.` components, folds `..` and
  merges repeated separators; the model does not. Interaction ids and data directories never
  need these rewrites: an id has no separator and ends in a digit
  (`InteractionIds.InteractionIdHasNoSeparator`).
- Tracker.UnconsentedNeverDrained: the agent is handed `data_dir` whatever the consent
  (app.py:271). The agent's code is not part of this model, and the model assumes it creates and
  writes nothing under `./tmp/`. `Records.StoreFolder`'s "without consent the set of folders is
  unchanged" rests on the same assumption.
- Sweep.Reap: a session hash is assumed non-empty. For an empty hash the code's data directory
  is `./tmp/` itself, which exists, so the code would wipe it and keep the session. The model's
  folder map holds no entry for `./tmp/`, so it would evict the session instead.
- Upload.UploadToHub: whether `./tmp/` itself exists is not modelled. After the sweep's
  `rmtree(".")` wipes it, `tempfile.TemporaryDirectory(dir=TMP_DIR)` raises in every later
  upload until a consented interaction's `makedirs` recreates it. The model lets such an upload
  proceed, so an empty drain appends an empty batch and returns normally.
- Floating-point wall-clock time is not modelled. Times are whole seconds, so the timeout
  comparisons are exact on integers.
- Logging and `print` are not modelled.
- App.AppState.UploadInteractionLogs: the ids to delete are removed from a local copy of the session's
  list, and the tracker is assigned once after the loop. The code deletes each id from the
  dictionary inside the loop. With sequential calls the two give the same final tracker.
- App.AppState.GetOrCreateSandbox: the class invariant says the two maps are in step and the
  handles come from the counter. That no two sessions share a handle is proved about the
  specification functions instead (`Sessions.AcquireKeepsDistinct`,
  `Sessions.EvictSparesOthers`), not kept as a field invariant.
- App.AppState.CleanupSandboxes: the order in which the dictionary yields idle sessions is
  chosen by the model. The postcondition holds for every order, so which folder-owning session
  is kept is not determined.

=== FILE: App.dfy ===
/**
 * The process-wide state of the app: the two sandbox dictionaries, the interaction tracker and
 * the interaction folders under TMP_DIR, together with the dataset's received batches and the
 * sandbox service's view of which handles it has given out and killed.
 */
module App {
  import opened Wrappers
  import opened Paths
  import opened Records
  import opened InteractionIds
  import opened Sessions
  import opened Upload
  import opened Tracker
  import opened Sweep

  class AppState {
    /** `SANDBOXES`: the sandbox handle of each session. */
    var sandboxes: map<string, Handle>
    /** `SANDBOX_METADATA`: when each session's sandbox was created and last handed out. */
    var metadata: map<string, Meta>
    /** `INTERACTION_IDS_PER_SESSION_HASH`: each session's interaction ids, in registration order. */
    var tracker: map<string, seq<string>>
    /** The interaction folders that exist under TMP_DIR. */
    var fs: FileSystem
    /** The batches the dataset has received, oldest first. */
    var uploads: seq<Batch>
    /** The handles whose `kill()` returned normally. */
    var killed: set<Handle>
    /** The handle the sandbox service gives to the next desktop it creates. */
    var nextHandle: nat

    /** The registry part of the state, as one value. */
    function RegistryView(): Registry
      reads this`sandboxes, this`metadata, this`killed, this`nextHandle
    {
      Registry(sandboxes, metadata, killed, nextHandle)
    }

    /** The two dictionaries are in step and every handle, live or killed, came from the counter. */
    ghost predicate RegistryValid()
      reads this`sandboxes, this`metadata, this`killed, this`nextHandle
    {
      Sessions.Valid(RegistryView())
    }

    /** Every interaction folder lies inside TMP_DIR. */
    ghost predicate FoldersValid()
      reads this`fs
    {
      forall p :: p in fs ==> InTmpDir(p)
    }

    /** No session tracks an interaction id twice. */
    ghost predicate TrackerValid()
      reads this`tracker
    {
      forall s :: s in tracker ==> NoDuplicates(tracker[s])
    }

    /** The registry is consistent, the folders lie inside TMP_DIR and the tracker has no repeats. */
    ghost predicate Valid()
      reads this
    {
      RegistryValid() && FoldersValid() && TrackerValid()
    }

    /**
     * The state at start-up: no session and no tracked interaction. TMP_DIR is created only when
     * missing, so the folders an earlier run left in it are still there.
     */
    constructor (leftover: FileSystem)
      requires forall p :: p in leftover ==> InTmpDir(p)
      ensures Valid()
      ensures sandboxes == map[] && metadata == map[] && tracker == map[]
      ensures fs == leftover && uploads == [] && killed == {} && nextHandle == 0
    {
      sandboxes, metadata, tracker := map[], map[], map[];
      fs, uploads, killed, nextHandle := leftover, [], {}, 0;
    }

    /**
     * `get_or_create_sandbox`: returns the session's sandbox while it is younger than the timeout,
     * otherwise kills the stored one (a failing kill is ignored) and stores a new one.
     */
    method GetOrCreateSandbox(sessionHash: string, now: nat, killOk: bool, provisionOk: bool)
      returns (r: Result<Handle, Error>)
      requires Valid()
      modifies this`sandboxes, this`metadata, this`killed, this`nextHandle
      ensures Valid()
      ensures (RegistryView(), r) == Acquire(old(RegistryView()), sessionHash, now, killOk, provisionOk)
    {
      AcquireKeepsValid(RegistryView(), sessionHash, now, killOk, provisionOk);
      if sessionHash in sandboxes && sessionHash in metadata
         && now - metadata[sessionHash].createdAt < SANDBOX_TIMEOUT
      {
        metadata := metadata[sessionHash := metadata[sessionHash].(lastAccessed := now)];
        return Ok(sandboxes[sessionHash]);
      }
      if sessionHash in sandboxes {
        if killOk {
          killed := killed + {sandboxes[sessionHash]};
        }
      }
      if !provisionOk {
        return Err(ProvisioningFailed);
      }
      var desktop := nextHandle;
      nextHandle := nextHandle + 1;
      sandboxes := sandboxes[sessionHash := desktop];
      metadata := metadata[sessionHash := Meta(now, now)];
      return Ok(desktop);
    }

    /** The first loop of `cleanup_sandboxes`: the sessions idle for longer than the timeout. */
    method CollectIdle(now: nat) returns (ids: set<string>)
      ensures ids == IdleSessions(metadata, now)
    {
      ids := {};
      var unseen := metadata.Keys;
      while unseen != {}
        invariant unseen <= metadata.Keys
        invariant ids == set s | s in metadata.Keys - unseen && Idle(metadata[s], now)
        decreases unseen
      {
        var sessionId :| sessionId in unseen;
        if now - metadata[sessionId].lastAccessed > SANDBOX_TIMEOUT {
          ids := ids + {sessionId};
        }
        unseen := unseen - {sessionId};
      }
    }

    /**
     * `upload_to_hf_and_remove`: scans, copies and removes each folder in turn, then uploads the
     * staged batch. An exception ends the call where it is raised.
     */
    method UploadToHfAndRemove(folderPaths: seq<Path>, uploadOk: bool) returns (r: Result<string, Error>)
      requires Valid()
      modifies this`fs, this`uploads
      ensures Valid()
      ensures var o := UploadToHub(folderPaths, old(fs), uploadOk);
        fs == o.fs && uploads == old(uploads) + UploadedBatches(o) && r == o.result
    {
      var staged: Batch := map[];
      var i := 0;
      while i < |folderPaths|
        invariant 0 <= i <= |folderPaths|
        invariant StageFolders(folderPaths[i..], fs, staged) == StageFolders(folderPaths, old(fs), map[])
        invariant fs.Keys <= old(fs).Keys
        invariant uploads == old(uploads)
      {
        var folderPath := folderPaths[i];
        assert folderPaths[i..][0] == folderPath && folderPaths[i..][1..] == folderPaths[i + 1..];
        var folderName := Basename(folderPath);
        if folderPath in fs && fs[folderPath].metadata.Some? {
          var task := FirstTask(fs[folderPath].metadata.value);
          if task.None? {
            return Err(MetadataUnreadable(folderPath));
          }
          if task.value !in TASK_EXAMPLES {
            if folderName in staged {
              return Err(StagingCollision(folderPath));
            }
            staged := staged[folderName := fs[folderPath]];
          }
        }
        if folderPath in fs {
          fs := fs - {folderPath};
        } else if folderPath == WORKING_DIR {
          fs := map[];
          return Err(WorkingDirectoryNotRemovable);
        } else {
          return Err(MissingFolder(folderPath));
        }
        i := i + 1;
      }
      if !uploadOk {
        return Err(UploadFailed);
      }
      uploads := uploads + [staged];
      return Ok(UploadMessage(|folderPaths|));
    }

    /** The part of the state `cleanup_sandboxes` reads and changes, as one value. */
    function SweepView(): World
      reads this`sandboxes, this`metadata, this`killed, this`nextHandle, this`fs, this`uploads
    {
      World(RegistryView(), fs, uploads)
    }

    /**
     * The `try` block of `cleanup_sandboxes` for one session still in `SANDBOXES`: upload its
     * folder if it has one (passing the path string itself), then kill the sandbox and delete the
     * session from both maps. An exception ends the block.
     */
    method ReapSession(sessionId: string, failingKills: set<Handle>, uploadOk: bool)
      requires Valid()
      modifies this`sandboxes, this`metadata, this`killed, this`fs, this`uploads
      ensures Valid()
      ensures SweepView() == Reap(old(SweepView()), sessionId, failingKills, uploadOk)
    {
      if sessionId !in sandboxes {
        return;
      }
      ReapCases(SweepView(), sessionId, failingKills, uploadOk);
      var dataDir := DataDir(sessionId);
      if dataDir in fs {
        var uploaded := UploadToHfAndRemove(CharPaths(dataDir), uploadOk);
        if uploaded.Err? {
          return;
        }
      }
      var desktop := sandboxes[sessionId];
      if desktop in failingKills {
        return;
      }
      EvictKeepsValid(RegistryView(), {sessionId});
      assert HandlesOf(sandboxes, {sessionId}) == {desktop};
      killed := killed + {desktop};
      sandboxes := sandboxes - {sessionId};
      metadata := metadata - {sessionId};
    }

    /**
     * `cleanup_sandboxes`: every idle session still in `SANDBOXES` is killed and deleted from both
     * maps, unless its cleanup raises. A session whose `TMP_DIR/<session>` folder exists wipes
     * TMP_DIR and is kept, so at most one such session is kept and every folder is gone after it.
     * Nothing is uploaded and the tracker is never touched.
     */
    method CleanupSandboxes(now: nat, failingKills: set<Handle>, uploadOk: bool)
      requires Valid()
      modifies this`sandboxes, this`metadata, this`killed, this`fs, this`uploads
      ensures Valid()
      ensures uploads == old(uploads)
      ensures var reg := old(RegistryView());
        var reapable := Reapable(reg, now, failingKills);
        var blocked := WithFolder(reg, IdleSessions(reg.metadata, now), old(fs));
        && (blocked == {} ==> fs == old(fs) && RegistryView() == Evict(reg, reapable))
        && (blocked != {} ==>
              fs == map[] && exists w :: w in blocked && RegistryView() == Evict(reg, reapable - {w}))
    {
      var sandboxesToRemove := CollectIdle(now);
      ghost var w0 := SweepView();
      ghost var done: set<string> := {};
      ghost var stuck: Option<string> := None;
      SweepStart(w0, failingKills);
      var pending := sandboxesToRemove;
      while pending != {}
        invariant done <= sandboxesToRemove && pending == sandboxesToRemove - done
        invariant Valid()
        invariant SweepInvariant(w0, failingKills, done, SweepView(), stuck)
        decreases pending
      {
        var sessionId :| sessionId in pending;
        SweepStep(w0, failingKills, done, SweepView(), stuck, sessionId, uploadOk);
        ReapSession(sessionId, failingKills, uploadOk);
        stuck := NextStuck(w0, stuck, sessionId);
        done := done + {sessionId};
        pending := pending - {sessionId};
      }
      assert done == sandboxesToRemove;
      SweepEnd(w0, failingKills, now, SweepView(), stuck);
    }

    /**
     * The `finally` write of `save_final_status`: append the status record to the folder's
     * `metadata.jsonl`, which fails when the folder does not exist.
     */
    method SaveFinalStatus(folder: Path, status: Status, summary: string, errorMessage: Option<string>)
      returns (r: Result<(), Error>)
      requires Valid()
      modifies this`fs
      ensures Valid()
      ensures folder !in old(fs) ==> r == Err(NoSuchDirectory(folder)) && fs == old(fs)
      ensures folder in old(fs) ==>
        && r == Ok(())
        && fs == old(fs)[folder := Folder(Some(AppendLine(old(fs)[folder].metadata,
                                                          StatusRecord(status, summary, errorMessage))))]
    {
      if folder !in fs {
        return Err(NoSuchDirectory(folder));
      }
      var lines := AppendLine(fs[folder].metadata, StatusRecord(status, summary, errorMessage));
      fs := fs[folder := Folder(Some(lines))];
      return Ok(());
    }

    /** The tracking step of `interact_with_agent`: the id is appended to the session's list. */
    method TrackInteraction(sessionHash: string, interactionId: string)
      requires Valid()
      modifies this`tracker
      ensures Valid()
      ensures tracker == Track(old(tracker), sessionHash, interactionId)
    {
      var ids := if sessionHash in tracker then tracker[sessionHash] else [];
      tracker := tracker[sessionHash := Register(ids, interactionId)];
    }

    /**
     * The folder part of `interact_with_agent`: with consent, create the interaction's folder,
     * write the task record, run the agent and append the terminal status. An empty task raises
     * after the folder is created. `errorMessage` stays None on a completed run, where the code's
     * `error_message` is never bound, so the status write raises instead of happening.
     */
    method StoreInteraction(dataDir: Path, taskInput: string, consentStorage: bool, run: AgentRun, summary: string)
      returns (r: Result<Status, Error>)
      requires Valid() && InTmpDir(dataDir)
      modifies this`fs
      ensures Valid()
      ensures fs == StoreFolder(old(fs), dataDir, taskInput, consentStorage, run, summary)
      ensures r == InteractionResult(taskInput, consentStorage, run)
    {
      if dataDir !in fs && consentStorage {
        fs := fs[dataDir := EMPTY_FOLDER];
      }
      if taskInput == [] {
        return Err(EmptyTask);
      }
      if consentStorage {
        fs := fs[dataDir := Folder(Some([TaskRecord(taskInput)]))];
      }
      var status := StatusOf(run);
      var errorMessage: Option<string> := if run.RunRaised? then Some(ErrorText(run.message)) else None;
      if consentStorage {
        if errorMessage.None? {
          return Err(UnboundErrorMessage);
        }
        var saved := SaveFinalStatus(dataDir, status, summary, errorMessage);
      }
      return Ok(status);
    }

    /**
     * The bookkeeping of `interact_with_agent`: name the interaction, get the session's sandbox,
     * track the interaction, then store its folder when the user consents.
     */
    method InteractWithAgent(taskInput: string, consentStorage: bool, sessionHash: string, now: nat,
                             killOk: bool, provisionOk: bool, run: AgentRun, summary: string)
      returns (r: Result<Status, Error>)
      requires Valid()
      modifies this`sandboxes, this`metadata, this`killed, this`nextHandle, this`tracker, this`fs
      ensures Valid()
      ensures uploads == old(uploads)
      ensures var (reg', acquired) := Acquire(old(RegistryView()), sessionHash, now, killOk, provisionOk);
        var id := InteractionId(sessionHash, now);
        && RegistryView() == reg'
        && (acquired.Err? ==> r == Err(ProvisioningFailed) && tracker == old(tracker) && fs == old(fs))
        && (acquired.Ok? ==>
              && tracker == Track(old(tracker), sessionHash, id)
              && fs == StoreFolder(old(fs), DataDir(id), taskInput, consentStorage, run, summary)
              && r == InteractionResult(taskInput, consentStorage, run))
    {
      var interactionId := InteractionId(sessionHash, now);
      var desktop := GetOrCreateSandbox(sessionHash, now, killOk, provisionOk);
      if desktop.Err? {
        return Err(desktop.error);
      }
      TrackInteraction(sessionHash, interactionId);
      r := StoreInteraction(DataDir(interactionId), taskInput, consentStorage, run, summary);
    }

    /**
     * The loop of `upload_interaction_logs` over a session's ids, in order: collect the data
     * directory of each id whose folder exists, and keep the list the session is left with once
     * those ids are deleted from it.
     */
    method DrainTracked(ids: seq<string>) returns (dataDirs: seq<Path>, remaining: seq<string>)
      requires NoDuplicates(ids)
      ensures dataDirs == DataDirs(Select(ids, fs, true))
      ensures remaining == Select(ids, fs, false)
    {
      var files := fs;
      remaining := ids;
      dataDirs := [];
      DrainStart(ids, files);
      for i := 0 to |ids|
        invariant dataDirs == DataDirs(Select(ids[..i], files, true))
        invariant remaining == Select(ids[..i], files, false) + ids[i..]
      {
        var interactionId := ids[i];
        var dataDir := DataDir(interactionId);
        if dataDir in files {
          DrainTake(ids, files, i);
          dataDirs := dataDirs + [dataDir];
          remaining := Without(remaining, interactionId);
        } else {
          DrainKeep(ids, files, i);
        }
      }
      DrainEnd(ids, files);
    }

    /**
     * `upload_interaction_logs`: drain the session's tracked ids whose folder exists, in tracking
     * order, and upload their folders. The session must be tracked, or the lookup raises.
     */
    method UploadInteractionLogs(sessionHash: string, uploadOk: bool) returns (r: Result<string, Error>)
      requires Valid()
      modifies this`tracker, this`fs, this`uploads
      ensures Valid()
      ensures sessionHash !in old(tracker) ==>
        r == Err(UntrackedSession) && tracker == old(tracker) && fs == old(fs) && uploads == old(uploads)
      ensures sessionHash in old(tracker) ==>
        var ids := old(tracker)[sessionHash];
        var o := UploadToHub(DataDirs(Select(ids, old(fs), true)), old(fs), uploadOk);
        && tracker == old(tracker)[sessionHash := Select(ids, old(fs), false)]
        && fs == o.fs && uploads == old(uploads) + UploadedBatches(o) && r == o.result
    {
      if sessionHash !in tracker {
        return Err(UntrackedSession);
      }
      var ids := tracker[sessionHash];
      var dataDirs, remaining := DrainTracked(ids);
      SelectNoDuplicates(ids, fs, false);
      tracker := tracker[sessionHash := remaining];
      assert TrackerValid() by {
        forall s | s in tracker ensures NoDuplicates(tracker[s]) {
          if s != sessionHash {
            assert tracker[s] == old(tracker)[s];
          }
        }
      }
      r := UploadToHfAndRemove(dataDirs, uploadOk);
    }
  }
}

=== FILE: Decimal.dfy ===
/** Decimal rendering of whole numbers, as Python's `str(int)` writes them. */
module Decimal {

  predicate IsDigit(c: char) {
    '0' <= c <= '9'
  }

  predicate AllDigits(s: string) {
    forall i :: 0 <= i < |s| ==> IsDigit(s[i])
  }

  function DigitChar(d: nat): (c: char)
    requires d < 10
    ensures IsDigit(c) && c as int - '0' as int == d
  {
    ('0' as int + d) as char
  }

  /** `str(n)` for a non-negative `n`: at least one digit, and no leading zero unless `n` is 0. */
  function NatToString(n: nat): (s: string)
    ensures |s| > 0 && AllDigits(s)
    ensures n > 0 ==> s[0] != '0'
    ensures n < 10 <==> |s| == 1
  {
    if n < 10 then [DigitChar(n)] else NatToString(n / 10) + [DigitChar(n % 10)]
  }

  /** `int(s)` for a string of decimal digits (the empty string reads as 0). */
  function ParseDecimal(s: string): nat
    requires AllDigits(s)
  {
    if s == [] then 0 else 10 * ParseDecimal(s[..|s| - 1]) + (s[|s| - 1] as int - '0' as int)
  }

  /** Reading back what `NatToString` wrote gives the number again. */
  lemma {:induction false} ParseNatToString(n: nat)
    ensures ParseDecimal(NatToString(n)) == n
  {
    if n >= 10 {
      var s := NatToString(n);
      assert s[..|s| - 1] == NatToString(n / 10);
      ParseNatToString(n / 10);
    }
  }

  /** Two numbers have the same decimal text exactly when they are equal. */
  lemma NatToStringInjective(a: nat, b: nat)
    ensures NatToString(a) == NatToString(b) <==> a == b
  {
    if NatToString(a) == NatToString(b) {
      ParseNatToString(a);
      ParseNatToString(b);
    }
  }
}

=== FILE: InteractionIds.dfy ===
/** Interaction identifiers: the session hash, an underscore, and the submission time in whole seconds. */
module InteractionIds {
  import opened Wrappers
  import opened Decimal

  /** `f"{session_hash}_{int(time.time())}"`, with the clock already read as whole seconds. */
  function InteractionId(sessionHash: string, now: nat): (id: string)
    ensures id != []
  {
    sessionHash + "_" + NatToString(now)
  }

  /** Splits at the last underscore: the text before it and the text after it. */
  function SplitAtLastUnderscore(id: string): Option<(string, string)>
  {
    if id == [] then None
    else if id[|id| - 1] == '_' then Some((id[..|id| - 1], ""))
    else match SplitAtLastUnderscore(id[..|id| - 1])
      case None => None
      case Some(parts) => Some((parts.0, parts.1 + [id[|id| - 1]]))
  }

  /** Recovers the session hash and the second from an interaction id. */
  function ParseInteractionId(id: string): Option<(string, nat)>
  {
    match SplitAtLastUnderscore(id)
    case None => None
    case Some(parts) =>
      if parts.1 != [] && AllDigits(parts.1) then Some((parts.0, ParseDecimal(parts.1))) else None
  }

  /** A suffix without underscores is split off whole, whatever the prefix contains. */
  lemma {:induction false} SplitAfterSuffix(prefix: string, suffix: string)
    requires '_' !in suffix
    ensures SplitAtLastUnderscore(prefix + "_" + suffix) == Some((prefix, suffix))
  {
    var id := prefix + "_" + suffix;
    if suffix == [] {
      assert id[..|id| - 1] == prefix;
    } else {
      assert id[..|id| - 1] == prefix + "_" + suffix[..|suffix| - 1];
      SplitAfterSuffix(prefix, suffix[..|suffix| - 1]);
      assert suffix[..|suffix| - 1] + [suffix[|suffix| - 1]] == suffix;
    }
  }

  /** Every interaction id names its session and its second, even when the session hash holds underscores. */
  lemma InteractionIdRoundTrip(sessionHash: string, now: nat)
    ensures ParseInteractionId(InteractionId(sessionHash, now)) == Some((sessionHash, now))
  {
    var digits := NatToString(now);
    assert '_' !in digits by {
      forall i | 0 <= i < |digits| ensures digits[i] != '_' {
        assert IsDigit(digits[i]);
      }
    }
    SplitAfterSuffix(sessionHash, digits);
    ParseNatToString(now);
  }

  /**
   * Two submissions share an interaction id exactly when they come from the same session in the
   * same second.
   */
  lemma InteractionIdInjective(s1: string, t1: nat, s2: string, t2: nat)
    ensures InteractionId(s1, t1) == InteractionId(s2, t2) <==> s1 == s2 && t1 == t2
  {
    if InteractionId(s1, t1) == InteractionId(s2, t2) {
      InteractionIdRoundTrip(s1, t1);
      InteractionIdRoundTrip(s2, t2);
    }
  }

  /**
   * A session hash without path separators gives an interaction id without them, and no id is
   * "." or "..": it ends in a digit.
   */
  lemma InteractionIdHasNoSeparator(sessionHash: string, now: nat)
    requires '/' !in sessionHash
    ensures '/' !in InteractionId(sessionHash, now)
    ensures InteractionId(sessionHash, now) != "." && InteractionId(sessionHash, now) != ".."
  {
    var digits := NatToString(now);
    assert '/' !in digits by {
      forall i | 0 <= i < |digits| ensures digits[i] != '/' {
        assert IsDigit(digits[i]);
      }
    }
    var id := InteractionId(sessionHash, now);
    assert id[|id| - 1] == digits[|digits| - 1] && IsDigit(digits[|digits| - 1]);
  }
}

=== FILE: Paths.dfy ===
/** Paths of the local artifact store: the `./tmp/` directory and the folders inside it. */
module Paths {

  type Path = string

  /** The directory that holds one folder per interaction. */
  const TMP_DIR: Path := "./tmp/"

  /** The process's working directory, the parent of TMP_DIR. */
  const WORKING_DIR: Path := "."

  /** `os.path.join(TMP_DIR, name)`: TMP_DIR already ends with a separator. */
  function DataDir(name: string): (p: Path)
    ensures name != [] ==> InTmpDir(p)
  {
    TMP_DIR + name
  }

  /** The path names an entry strictly inside TMP_DIR. */
  predicate InTmpDir(p: Path) {
    |p| > |TMP_DIR| && p[..|TMP_DIR|] == TMP_DIR
  }

  /** Trailing separators removed, as `os.path.normpath` does (a lone "/" stays). */
  function StripTrailingSlashes(p: Path): (q: Path)
    ensures |q| <= |p| && q == p[..|q|]
    ensures forall i :: |q| <= i < |p| ==> p[i] == '/'
    ensures |q| > 1 ==> q[|q| - 1] != '/'
    ensures p != [] ==> q != []
  {
    if |p| > 1 && p[|p| - 1] == '/' then StripTrailingSlashes(p[..|p| - 1]) else p
  }

  /** The text after the last separator. */
  function LastComponent(p: Path): (name: string)
    ensures '/' !in name
  {
    if p == [] || p[|p| - 1] == '/' then [] else LastComponent(p[..|p| - 1]) + [p[|p| - 1]]
  }

  /** `os.path.basename(os.path.normpath(p))` for paths without "." or ".." components past the first. */
  function Basename(p: Path): string {
    LastComponent(StripTrailingSlashes(p))
  }

  /** After a directory prefix that ends in a separator, the last component is the suffix itself. */
  lemma {:induction false} LastComponentAfterSeparator(dir: Path, name: string)
    requires dir != [] && dir[|dir| - 1] == '/'
    requires '/' !in name
    ensures LastComponent(dir + name) == name
  {
    if name == [] {
      assert dir + name == dir;
    } else {
      var p := dir + name;
      assert p[..|p| - 1] == dir + name[..|name| - 1];
      LastComponentAfterSeparator(dir, name[..|name| - 1]);
      assert name[..|name| - 1] + [name[|name| - 1]] == name;
    }
  }

  /** The folder of an interaction is staged under the interaction's own name. */
  lemma BasenameOfDataDir(name: string)
    requires name != [] && '/' !in name && name != "." && name != ".."
    ensures Basename(DataDir(name)) == name
  {
    var p := DataDir(name);
    assert p[|p| - 1] == name[|name| - 1];
    LastComponentAfterSeparator(TMP_DIR, name);
  }

  /** Distinct names give distinct data directories. */
  lemma DataDirInjective(a: string, b: string)
    ensures DataDir(a) == DataDir(b) <==> a == b
  {
    if DataDir(a) == DataDir(b) {
      assert a == DataDir(a)[|TMP_DIR|..];
    }
  }
}

=== FILE: Records.dfy ===
/**
 * The per-interaction artifact folder: its `metadata.jsonl` record stream, the filter that keeps
 * example tasks out of the dataset, and the errors the bookkeeping code can raise.
 */
module Records {
  import opened Wrappers
  import opened Paths

  /** Everything the bookkeeping code can raise, one constructor per exception it lets escape. */
  datatype Error =
    | ProvisioningFailed            // the sandbox service refused to create or set up a desktop
    | EmptyTask                     // `gr.Error("Task cannot be empty")`
    | UnboundErrorMessage           // `error_message` read in `finally` on a run that did not fail
    | UntrackedSession              // KeyError on the interaction tracker
    | NoSuchDirectory(path: Path)   // opening `metadata.jsonl` inside a folder that does not exist
    | MetadataUnreadable(path: Path) // a line that is not JSON, no first line, or no "task" key
    | StagingCollision(path: Path)  // `copytree` onto a name already staged
    | MissingFolder(path: Path)     // `rmtree` of a folder that does not exist
    | WorkingDirectoryNotRemovable  // `rmtree(".")` removes the contents, then cannot remove "."
    | UploadFailed                  // `upload_folder` raised

  datatype Status = Completed | Failed

  /** One line of `metadata.jsonl`. A blank line is what appending to a missing or empty file leaves first. */
  datatype Record =
    | TaskRecord(task: string)
    | StatusRecord(status: Status, summary: string, errorMessage: Option<string>)
    | BlankLine

  /** An interaction folder; `metadata` is None while the folder holds no `metadata.jsonl`. */
  datatype Folder = Folder(metadata: Option<seq<Record>>)

  /** The folders that exist, by path. */
  type FileSystem = map<Path, Folder>

  /** A staged upload batch: folder contents by the name they are copied under. */
  type Batch = map<string, Folder>

  const EMPTY_FOLDER := Folder(None)

  /** The example tasks offered by the UI; folders recording one of these are never uploaded. */
  const TASK_EXAMPLES: seq<string> := [
    "Use Google Maps to find the Hugging Face HQ in Paris",
    "Go to Wikipedia and find what happened on April 4th",
    "Find out the travel time by train from Bern to Basel on Google Maps",
    "Go to Hugging Face Spaces and then find the Space flux.1 schnell. Use the space to generate an image with the prompt 'a field of gpus'"
  ]

  /**
   * `json.loads` of every line, then `[0]["task"]`: None when a line is blank, when there is no
   * first line, or when the first record has no task.
   */
  function FirstTask(records: seq<Record>): (task: Option<string>)
    ensures task.Some? <==> BlankLine !in records && records != [] && records[0].TaskRecord?
    ensures task.Some? ==> task.value == records[0].task
  {
    if BlankLine in records || records == [] || !records[0].TaskRecord? then None
    else Some(records[0].task)
  }

  /** The upload pass can read this folder: no `metadata.jsonl`, or one whose first record names a task. */
  predicate Readable(f: Folder) {
    f.metadata.None? || FirstTask(f.metadata.value).Some?
  }

  /** The upload pass copies this folder: its recorded task exists and is not an example task. */
  predicate Eligible(f: Folder) {
    f.metadata.Some? && FirstTask(f.metadata.value).Some? && FirstTask(f.metadata.value).value !in TASK_EXAMPLES
  }

  /** How the agent run inside the `try` ended. */
  datatype AgentRun = RunCompleted | RunRaised(message: string)

  function StatusOf(run: AgentRun): Status {
    if run.RunCompleted? then Completed else Failed
  }

  /** The text bound to `error_message` by the `except` clause. */
  function ErrorText(message: string): string {
    "Error in interaction: " + message
  }

  /** The terminal record the `finally` clause means to append. */
  function FinalRecord(run: AgentRun, summary: string): Record {
    StatusRecord(StatusOf(run), summary, if run.RunRaised? then Some(ErrorText(run.message)) else None)
  }

  /**
   * The terminal record the `finally` clause does append: None after a completed run, because
   * reading the unbound `error_message` raises before `save_final_status` is called.
   */
  function FinalRecordAsWritten(run: AgentRun, summary: string): Option<Record> {
    if run.RunRaised? then Some(FinalRecord(run, summary)) else None
  }

  /**
   * Opening `metadata.jsonl` in append mode and writing a newline then `r`: the new line follows
   * the existing ones; a missing or empty file gets a blank first line.
   */
  function AppendLine(existing: Option<seq<Record>>, r: Record): (lines: seq<Record>)
    ensures |lines| >= 2 && lines[|lines| - 1] == r
    ensures existing.Some? ==> existing.value <= lines
  {
    if existing.Some? && existing.value != [] then existing.value + [r] else [BlankLine, r]
  }

  /** The record stream of a consented interaction with a non-empty task, as the code leaves it. */
  function ConsentedRecords(task: string, run: AgentRun, summary: string): seq<Record> {
    match FinalRecordAsWritten(run, summary)
    case None => [TaskRecord(task)]
    case Some(r) => AppendLine(Some([TaskRecord(task)]), r)
  }

  /**
   * The record stream the `finally` clause is written to leave: it calls `save_final_status`,
   * whose `error_message` defaults to None, on every path, so the task comes first and one
   * terminal status record last.
   */
  function IntendedRecords(task: string, run: AgentRun, summary: string): seq<Record> {
    AppendLine(Some([TaskRecord(task)]), FinalRecord(run, summary))
  }

  /** A completed run leaves its folder with the task record and no status record at all. */
  lemma CompletedRunRecordsNoStatus(task: string, summary: string)
    ensures ConsentedRecords(task, RunCompleted, summary) == [TaskRecord(task)]
    ensures forall r :: r in ConsentedRecords(task, RunCompleted, summary) ==> !r.StatusRecord?
  {
  }

  /** A failed run records the task, then `failed` with the summary and the error text. */
  lemma FailedRunRecords(task: string, message: string, summary: string)
    ensures ConsentedRecords(task, RunRaised(message), summary)
         == [TaskRecord(task), StatusRecord(Failed, summary, Some(ErrorText(message)))]
  {
  }

  /** With the intended `finally`, every run ends with exactly one status record that matches it. */
  lemma IntendedRecordsEndWithStatus(task: string, run: AgentRun, summary: string)
    ensures var rs := IntendedRecords(task, run, summary);
      |rs| == 2 && rs[0] == TaskRecord(task)
      && rs[1].StatusRecord? && rs[1].status == StatusOf(run) && rs[1].summary == summary
      && (rs[1].errorMessage.Some? <==> run.RunRaised?)
  {
  }

  /** Both streams start with the task, so such a folder is uploaded exactly when the task is not an example. */
  lemma ConsentedFolderEligibleIff(task: string, run: AgentRun, summary: string)
    ensures Readable(Folder(Some(ConsentedRecords(task, run, summary))))
    ensures Eligible(Folder(Some(ConsentedRecords(task, run, summary)))) <==> task !in TASK_EXAMPLES
    ensures Eligible(Folder(Some(IntendedRecords(task, run, summary)))) <==> task !in TASK_EXAMPLES
  {
    var rs := ConsentedRecords(task, run, summary);
    assert rs[0] == TaskRecord(task);
    assert BlankLine !in rs;
    var ts := IntendedRecords(task, run, summary);
    assert ts[0] == TaskRecord(task);
    assert BlankLine !in ts;
  }

  /**
   * The interaction folders after the bookkeeping of `interact_with_agent`: with consent the
   * interaction's folder is created (an existing one is kept as it is) and, once the task is
   * known to be non-empty, holds the records the run leaves; without consent nothing is written.
   */
  function StoreFolder(fs: FileSystem, dir: Path, task: string, consent: bool, run: AgentRun, summary: string)
    : (fs': FileSystem)
    ensures fs'.Keys == if consent then fs.Keys + {dir} else fs.Keys
    ensures forall p :: p in fs && p != dir ==> fs'[p] == fs[p]
  {
    if !consent then fs
    else if task == [] then fs[dir := if dir in fs then fs[dir] else EMPTY_FOLDER]
    else fs[dir := Folder(Some(ConsentedRecords(task, run, summary)))]
  }

  /**
   * What the bookkeeping of `interact_with_agent` raises, or else the run's status: an empty task
   * raises, and so does every completed run the user consented to store.
   */
  function InteractionResult(task: string, consent: bool, run: AgentRun): (r: Result<Status, Error>)
    ensures r.Ok? <==> task != [] && (!consent || run.RunRaised?)
    ensures r.Ok? ==> r.value == StatusOf(run)
    ensures r.Err? ==> r.error in {EmptyTask, UnboundErrorMessage}
  {
    if task == [] then Err(EmptyTask)
    else if consent && run.RunCompleted? then Err(UnboundErrorMessage)
    else Ok(StatusOf(run))
  }

  /**
   * A consented interaction with a task leaves a readable folder, which the upload pass takes
   * exactly when the task is not an example; after a completed run it holds no status record.
   */
  lemma StoredFolderEligible(fs: FileSystem, dir: Path, task: string, run: AgentRun, summary: string)
    requires task != []
    ensures var fs' := StoreFolder(fs, dir, task, true, run, summary);
      && dir in fs' && Readable(fs'[dir])
      && (Eligible(fs'[dir]) <==> task !in TASK_EXAMPLES)
      && (run.RunCompleted? ==> fs'[dir].metadata == Some([TaskRecord(task)]))
  {
    ConsentedFolderEligibleIff(task, run, summary);
  }

  /** The task the interaction writes first is the task the upload pass reads back. */
  lemma ConsentedRecordsTaskReadBack(task: string, run: AgentRun, summary: string)
    ensures FirstTask(ConsentedRecords(task, run, summary)) == Some(task)
    ensures FirstTask(IntendedRecords(task, run, summary)) == Some(task)
  {
  }

  /** Appending a status line to a non-empty `metadata.jsonl` does not change the task read from it. */
  lemma AppendKeepsFirstTask(rs: seq<Record>, r: Record)
    requires rs != [] && r != BlankLine
    ensures FirstTask(AppendLine(Some(rs), r)) == FirstTask(rs)
  {
  }

  /**
   * The request's outcome agrees with the folder it leaves: with consent, a normal return means
   * the folder ends with a status record carrying the returned status, and a raise after a
   * non-empty task means the folder holds no status record at all; without consent no folder
   * is written.
   */
  lemma InteractionResultMatchesFolder(fs: FileSystem, dir: Path, task: string, consent: bool, run: AgentRun,
                                       summary: string)
    ensures var fs' := StoreFolder(fs, dir, task, consent, run, summary);
      var r := InteractionResult(task, consent, run);
      && (!consent ==> fs' == fs)
      && (consent && r.Ok? ==>
            && dir in fs' && fs'[dir].metadata.Some?
            && var rs := fs'[dir].metadata.value;
               |rs| > 0 && rs[|rs| - 1].StatusRecord? && rs[|rs| - 1].status == r.value)
      && (consent && task != [] && r.Err? ==>
            && dir in fs' && fs'[dir].metadata.Some?
            && forall x :: x in fs'[dir].metadata.value ==> !x.StatusRecord?)
  {
  }

  /** A status appended where no `metadata.jsonl` exists yet makes the folder unreadable to the upload pass. */
  lemma AppendToMissingFileUnreadable(r: Record)
    ensures !Readable(Folder(Some(AppendLine(None, r))))
  {
    assert BlankLine in AppendLine(None, r);
  }
}

=== FILE: Sessions.dfy ===
/**
 * The session registry: one sandbox handle per session hash, with its creation and last-access
 * times. Sandbox handles are opaque numbers handed out by a counter; `killed` records the handles
 * whose `kill()` call returned normally.
 */
module Sessions {
  import opened Wrappers
  import opened Paths
  import opened Records

  type Handle = nat

  /** Seconds a sandbox stays usable after creation, and idle before the sweep reclaims it. */
  const SANDBOX_TIMEOUT: nat := 300

  datatype Meta = Meta(createdAt: nat, lastAccessed: nat)

  /** `SANDBOXES` and `SANDBOX_METADATA`, with the state of the sandbox service next to them. */
  datatype Registry = Registry(
    sandboxes: map<string, Handle>,
    metadata: map<string, Meta>,
    killed: set<Handle>,
    nextHandle: nat)

  /** Both dictionaries hold the same sessions, and every handle, live or killed, came from the counter. */
  ghost predicate Valid(reg: Registry) {
    && reg.sandboxes.Keys == reg.metadata.Keys
    && (forall s :: s in reg.sandboxes ==> reg.sandboxes[s] < reg.nextHandle)
    && (forall h :: h in reg.killed ==> h < reg.nextHandle)
  }

  /** No sandbox handle is shared by two sessions. */
  ghost predicate HandlesDistinct(reg: Registry) {
    forall s1, s2 :: s1 in reg.sandboxes && s2 in reg.sandboxes && s1 != s2 ==>
      reg.sandboxes[s1] != reg.sandboxes[s2]
  }

  /** The reuse test of `get_or_create_sandbox`: present in both maps and younger than the timeout. */
  predicate Reusable(reg: Registry, sessionHash: string, now: nat) {
    && sessionHash in reg.sandboxes
    && sessionHash in reg.metadata
    && now - reg.metadata[sessionHash].createdAt < SANDBOX_TIMEOUT
  }

  /** The idleness test of `cleanup_sandboxes`: not accessed for strictly more than the timeout. */
  predicate Idle(m: Meta, now: nat) {
    now - m.lastAccessed > SANDBOX_TIMEOUT
  }

  /**
   * `get_or_create_sandbox`: reuse the stored handle while it is young enough, refreshing its
   * access time; otherwise try to kill the stored handle, whatever the kill does, and store a
   * freshly provisioned one. A provisioning failure raises and stores nothing.
   */
  function Acquire(reg: Registry, sessionHash: string, now: nat, killOk: bool, provisionOk: bool)
    : (Registry, Result<Handle, Error>)
  {
    if Reusable(reg, sessionHash, now) then
      var m := reg.metadata[sessionHash];
      (reg.(metadata := reg.metadata[sessionHash := m.(lastAccessed := now)]), Ok(reg.sandboxes[sessionHash]))
    else
      var killed :=
        if sessionHash in reg.sandboxes && killOk then reg.killed + {reg.sandboxes[sessionHash]} else reg.killed;
      if !provisionOk then
        (reg.(killed := killed), Err(ProvisioningFailed))
      else
        var h := reg.nextHandle;
        (Registry(reg.sandboxes[sessionHash := h], reg.metadata[sessionHash := Meta(now, now)], killed, h + 1), Ok(h))
  }

  /** A cache hit returns the stored handle, sets `last_accessed` to now and changes nothing else. */
  lemma AcquireReuses(reg: Registry, sessionHash: string, now: nat, killOk: bool, provisionOk: bool)
    requires Reusable(reg, sessionHash, now)
    ensures var (reg', r) := Acquire(reg, sessionHash, now, killOk, provisionOk);
      && r == Ok(reg.sandboxes[sessionHash])
      && reg'.sandboxes == reg.sandboxes
      && reg'.killed == reg.killed
      && reg'.nextHandle == reg.nextHandle
      && sessionHash in reg'.metadata
      && reg'.metadata[sessionHash] == Meta(reg.metadata[sessionHash].createdAt, now)
  {
  }

  /**
   * A miss provisions a handle that no session holds and that was never killed, stamped with
   * now as both times; a kill failure on the stale handle does not stop the replacement.
   */
  lemma AcquireReplaces(reg: Registry, sessionHash: string, now: nat, killOk: bool, provisionOk: bool)
    requires Valid(reg)
    requires !Reusable(reg, sessionHash, now)
    ensures var (reg', r) := Acquire(reg, sessionHash, now, killOk, provisionOk);
      && (sessionHash in reg.sandboxes && killOk ==> reg'.killed == reg.killed + {reg.sandboxes[sessionHash]})
      && (sessionHash !in reg.sandboxes || !killOk ==> reg'.killed == reg.killed)
      && (provisionOk ==>
            && r.Ok?
            && r.value == reg.nextHandle && reg'.nextHandle == reg.nextHandle + 1
            && r.value !in reg.sandboxes.Values
            && r.value !in reg.killed
            && reg'.sandboxes == reg.sandboxes[sessionHash := r.value]
            && reg'.metadata == reg.metadata[sessionHash := Meta(now, now)])
      && (!provisionOk ==>
            r == Err(ProvisioningFailed) && reg'.sandboxes == reg.sandboxes && reg'.metadata == reg.metadata)
  {
  }

  /** Every other session keeps its handle and its timestamps. */
  lemma AcquireIsolation(reg: Registry, sessionHash: string, now: nat, killOk: bool, provisionOk: bool, other: string)
    requires other != sessionHash
    ensures var (reg', _) := Acquire(reg, sessionHash, now, killOk, provisionOk);
      && (other in reg'.sandboxes <==> other in reg.sandboxes)
      && (other in reg.sandboxes ==> reg'.sandboxes[other] == reg.sandboxes[other])
      && (other in reg'.metadata <==> other in reg.metadata)
      && (other in reg.metadata ==> reg'.metadata[other] == reg.metadata[other])
  {
  }

  /** Get-or-create keeps the two maps in step and never gives one handle to two sessions. */
  lemma AcquireKeepsValid(reg: Registry, sessionHash: string, now: nat, killOk: bool, provisionOk: bool)
    requires Valid(reg)
    ensures Valid(Acquire(reg, sessionHash, now, killOk, provisionOk).0)
  {
  }

  /** A freshly provisioned handle is above every handle in use, so no two sessions come to share one. */
  lemma AcquireKeepsDistinct(reg: Registry, sessionHash: string, now: nat, killOk: bool, provisionOk: bool)
    requires Valid(reg) && HandlesDistinct(reg)
    ensures HandlesDistinct(Acquire(reg, sessionHash, now, killOk, provisionOk).0)
  {
    var reg' := Acquire(reg, sessionHash, now, killOk, provisionOk).0;
    forall s1, s2 | s1 in reg'.sandboxes && s2 in reg'.sandboxes && s1 != s2
      ensures reg'.sandboxes[s1] != reg'.sandboxes[s2]
    {
      if !Reusable(reg, sessionHash, now) && provisionOk && (s1 == sessionHash || s2 == sessionHash) {
        var other := if s1 == sessionHash then s2 else s1;
        assert reg'.sandboxes[other] == reg.sandboxes[other] < reg.nextHandle;
      }
    }
  }

  /**
   * After a successful call the session is in both maps, and any later call still inside the
   * creation window returns the same handle and moves `last_accessed` to its own time.
   */
  lemma AcquireThenReuse(reg: Registry, sessionHash: string, now: nat, killOk: bool, provisionOk: bool,
                         later: nat, killOk2: bool, provisionOk2: bool)
    requires Acquire(reg, sessionHash, now, killOk, provisionOk).1.Ok?
    ensures var (reg1, r1) := Acquire(reg, sessionHash, now, killOk, provisionOk);
      && Reusable(reg1, sessionHash, now)
      && (later - reg1.metadata[sessionHash].createdAt < SANDBOX_TIMEOUT ==>
            var (reg2, r2) := Acquire(reg1, sessionHash, later, killOk2, provisionOk2);
            r2 == r1 && reg2.metadata[sessionHash].lastAccessed == later)
  {
  }

  /** `sandboxes_to_remove`: the sessions whose metadata says they are idle. */
  function IdleSessions(metadata: map<string, Meta>, now: nat): set<string> {
    set s | s in metadata && Idle(metadata[s], now)
  }

  /** The handles of the given sessions. */
  function HandlesOf(sandboxes: map<string, Handle>, sessions: set<string>): set<Handle> {
    set s | s in sessions && s in sandboxes :: sandboxes[s]
  }

  /** Those of the given sessions that are in `SANDBOXES` and whose `kill()` returns normally. */
  function Killable(reg: Registry, sessions: set<string>, failingKills: set<Handle>): set<string> {
    set s | s in sessions && s in reg.sandboxes && reg.sandboxes[s] !in failingKills
  }

  /** Those of the given sessions that are in `SANDBOXES` and have a folder `TMP_DIR/<session>`. */
  function WithFolder(reg: Registry, sessions: set<string>, fs: FileSystem): set<string> {
    set s | s in sessions && s in reg.sandboxes && DataDir(s) in fs
  }

  /** Sessions the sweep would reclaim if their cleanup raises nothing: idle, in `SANDBOXES`, kill succeeds. */
  function Reapable(reg: Registry, now: nat, failingKills: set<Handle>): set<string> {
    Killable(reg, IdleSessions(reg.metadata, now), failingKills)
  }

  /** Looking at one more session adds it to the killable ones exactly when it is present and its kill succeeds. */
  lemma KillableStep(reg: Registry, sessions: set<string>, failingKills: set<Handle>, s: string)
    ensures Killable(reg, sessions + {s}, failingKills)
         == Killable(reg, sessions, failingKills)
          + (if s in reg.sandboxes && reg.sandboxes[s] !in failingKills then {s} else {})
  {
  }

  /** Looking at one more session adds it to those with a folder exactly when it is present and has one. */
  lemma WithFolderStep(reg: Registry, sessions: set<string>, fs: FileSystem, s: string)
    ensures WithFolder(reg, sessions + {s}, fs)
         == WithFolder(reg, sessions, fs) + (if s in reg.sandboxes && DataDir(s) in fs then {s} else {})
  {
  }

  /** Killing and deleting the given sessions from both maps. */
  function Evict(reg: Registry, sessions: set<string>): Registry {
    reg.(sandboxes := reg.sandboxes - sessions,
         metadata := reg.metadata - sessions,
         killed := reg.killed + HandlesOf(reg.sandboxes, sessions))
  }

  /** Eviction keeps the registry consistent; the evicted sessions are gone, all others are untouched. */
  lemma EvictKeepsValid(reg: Registry, sessions: set<string>)
    requires Valid(reg)
    ensures var reg' := Evict(reg, sessions);
      && Valid(reg')
      && (forall s :: s in sessions ==> s !in reg'.sandboxes && s !in reg'.metadata)
      && (forall s :: s in reg.sandboxes && s !in sessions ==>
            s in reg'.sandboxes && reg'.sandboxes[s] == reg.sandboxes[s] && reg'.metadata[s] == reg.metadata[s])
  {
  }

  /**
   * With distinct handles, evicting sessions kills none of the sandboxes the remaining sessions
   * still hold, and the remaining handles stay distinct.
   */
  lemma EvictSparesOthers(reg: Registry, sessions: set<string>)
    requires HandlesDistinct(reg)
    ensures var reg' := Evict(reg, sessions);
      && HandlesDistinct(reg')
      && forall s :: s in reg'.sandboxes ==> reg'.sandboxes[s] !in HandlesOf(reg.sandboxes, sessions)
  {
  }

  /** A session the sweep may reclaim is idle and present, so a recently used session is never reclaimed. */
  lemma ReapableAreIdle(reg: Registry, now: nat, failingKills: set<Handle>, s: string)
    requires s in Reapable(reg, now, failingKills)
    ensures s in reg.sandboxes && s in reg.metadata && now - reg.metadata[s].lastAccessed > SANDBOX_TIMEOUT
  {
  }

  /** Evicting one more session after a set of others is evicting them all at once. */
  lemma EvictStep(reg: Registry, sessions: set<string>, s: string)
    requires s !in sessions
    ensures Evict(Evict(reg, sessions), {s}) == Evict(reg, sessions + {s})
  {
    var rest := reg.sandboxes - sessions;
    assert HandlesOf(reg.sandboxes, sessions + {s})
        == HandlesOf(reg.sandboxes, sessions) + HandlesOf(rest, {s});
  }
}

=== FILE: Sweep.dfy ===
/**
 * `cleanup_sandboxes` on values. One session's cleanup is `Reap`; the sweep applies it to every
 * idle session in an order the dictionary chooses, and `SweepInvariant` describes what every
 * order has done after any set of sessions.
 */
module Sweep {
  import opened Wrappers
  import opened Paths
  import opened Records
  import opened Sessions
  import opened Upload

  /** What the sweep reads and changes: the registry, the folders, the batches uploaded so far. */
  datatype World = World(reg: Registry, fs: FileSystem, uploads: seq<Batch>)

  /** Every folder lies inside TMP_DIR. */
  predicate InsideTmp(fs: FileSystem) {
    forall p :: p in fs ==> InTmpDir(p)
  }

  /**
   * The `try` block for one session still in `SANDBOXES`: when `TMP_DIR/<session>` exists, the
   * upload is handed that path string (not a list) and an exception ends the block; otherwise,
   * or after an upload that returns, the sandbox is killed and the session deleted from both maps,
   * unless the kill raises. A session no longer in `SANDBOXES` is skipped.
   */
  function Reap(w: World, s: string, failingKills: set<Handle>, uploadOk: bool): World {
    if s !in w.reg.sandboxes then w
    else
      var dir := DataDir(s);
      var o := UploadToHub(CharPaths(dir), w.fs, uploadOk);
      if dir in w.fs && o.result.Err? then w.(fs := o.fs)
      else
        var uploaded := if dir in w.fs then w.(fs := o.fs, uploads := w.uploads + UploadedBatches(o)) else w;
        if w.reg.sandboxes[s] in failingKills then uploaded
        else uploaded.(reg := Evict(w.reg, {s}))
  }

  /**
   * Because every folder lies inside TMP_DIR, the upload of a path string always wipes TMP_DIR
   * and raises: a session with a folder is kept, every folder is gone, and nothing is uploaded.
   * A session without one is killed and deleted unless its kill raises.
   */
  lemma ReapCases(w: World, s: string, failingKills: set<Handle>, uploadOk: bool)
    requires InsideTmp(w.fs)
    ensures Reap(w, s, failingKills, uploadOk) == ReapInsideTmp(w, s, failingKills)
  {
    UploadOfPathStringWipes(s, w.fs, uploadOk);
  }

  /** The session kept because its upload wiped TMP_DIR: the first one met that has a folder. */
  function NextStuck(w0: World, stuck: Option<string>, s: string): Option<string> {
    if stuck.None? && s in w0.reg.sandboxes && DataDir(s) in w0.fs then Some(s) else stuck
  }

  /**
   * After the sessions in `done` have been swept from `w0`: nothing was uploaded; if none of them
   * had a folder, the folders are untouched and exactly the killable ones are evicted; otherwise
   * the first with a folder (`stuck`) wiped TMP_DIR and is kept, and all other killable ones are
   * evicted.
   */
  ghost predicate SweepInvariant(w0: World, failingKills: set<Handle>, done: set<string>, w: World,
                                 stuck: Option<string>)
  {
    && Valid(w0.reg) && InsideTmp(w0.fs)
    && w.uploads == w0.uploads
    && (stuck.None? ==>
          && w.fs == w0.fs
          && WithFolder(w0.reg, done, w0.fs) == {}
          && w.reg == Evict(w0.reg, Killable(w0.reg, done, failingKills)))
    && (stuck.Some? ==>
          && w.fs == map[]
          && stuck.value in WithFolder(w0.reg, done, w0.fs)
          && w.reg == Evict(w0.reg, Killable(w0.reg, done, failingKills) - {stuck.value}))
  }

  /** Before any session is swept the invariant holds with nothing evicted. */
  lemma SweepStart(w0: World, failingKills: set<Handle>)
    requires Valid(w0.reg) && InsideTmp(w0.fs)
    ensures SweepInvariant(w0, failingKills, {}, w0, None)
  {
    assert Killable(w0.reg, {}, failingKills) == {};
    assert HandlesOf(w0.reg.sandboxes, {}) == {};
    assert Evict(w0.reg, {}) == w0.reg;
  }

  /**
   * What one session's cleanup does when every folder lies inside TMP_DIR (see `ReapCases`):
   * keep it and wipe the folders, keep it, or evict it.
   */
  function ReapInsideTmp(w: World, s: string, failingKills: set<Handle>): World {
    if s !in w.reg.sandboxes then w
    else if DataDir(s) in w.fs then w.(fs := map[])
    else if w.reg.sandboxes[s] in failingKills then w
    else w.(reg := Evict(w.reg, {s}))
  }

  /** Sweeping one more session, whichever it is, keeps the invariant. */
  lemma SweepStep(w0: World, failingKills: set<Handle>, done: set<string>, w: World, stuck: Option<string>,
                  s: string, uploadOk: bool)
    requires SweepInvariant(w0, failingKills, done, w, stuck) && s !in done
    ensures SweepInvariant(w0, failingKills, done + {s}, Reap(w, s, failingKills, uploadOk), NextStuck(w0, stuck, s))
  {
    ReapCases(w, s, failingKills, uploadOk);
    SweepStepInsideTmp(w0, failingKills, done, w, stuck, s);
  }

  /** `SweepStep` once the cleanup's effect is known. */
  lemma SweepStepInsideTmp(w0: World, failingKills: set<Handle>, done: set<string>, w: World,
                           stuck: Option<string>, s: string)
    requires SweepInvariant(w0, failingKills, done, w, stuck) && s !in done
    ensures SweepInvariant(w0, failingKills, done + {s}, ReapInsideTmp(w, s, failingKills), NextStuck(w0, stuck, s))
  {
    KillableStep(w0.reg, done, failingKills, s);
    WithFolderStep(w0.reg, done, w0.fs, s);
    if stuck.None? {
      SweepStepFresh(w0, failingKills, done, w, s);
    } else {
      SweepStepStuck(w0, failingKills, done, w, stuck.value, s);
    }
  }

  /** Before any session has wiped TMP_DIR, the next one is skipped, kept, wipes TMP_DIR or is evicted. */
  lemma SweepStepFresh(w0: World, failingKills: set<Handle>, done: set<string>, w: World, s: string)
    requires SweepInvariant(w0, failingKills, done, w, None) && s !in done
    requires Killable(w0.reg, done + {s}, failingKills)
          == Killable(w0.reg, done, failingKills)
           + (if s in w0.reg.sandboxes && w0.reg.sandboxes[s] !in failingKills then {s} else {})
    requires WithFolder(w0.reg, done + {s}, w0.fs)
          == WithFolder(w0.reg, done, w0.fs) + (if s in w0.reg.sandboxes && DataDir(s) in w0.fs then {s} else {})
    ensures SweepInvariant(w0, failingKills, done + {s}, ReapInsideTmp(w, s, failingKills), NextStuck(w0, None, s))
  {
    var killable := Killable(w0.reg, done, failingKills);
    assert s !in killable;
    if s in w0.reg.sandboxes && DataDir(s) !in w0.fs && w0.reg.sandboxes[s] !in failingKills {
      EvictStep(w0.reg, killable, s);
    } else if s in w0.reg.sandboxes && DataDir(s) in w0.fs {
      assert Killable(w0.reg, done + {s}, failingKills) - {s} == killable;
    }
  }

  /** After a session has wiped TMP_DIR, the next one is skipped, kept or evicted. */
  lemma SweepStepStuck(w0: World, failingKills: set<Handle>, done: set<string>, w: World, stuck: string, s: string)
    requires SweepInvariant(w0, failingKills, done, w, Some(stuck)) && s !in done
    requires Killable(w0.reg, done + {s}, failingKills)
          == Killable(w0.reg, done, failingKills)
           + (if s in w0.reg.sandboxes && w0.reg.sandboxes[s] !in failingKills then {s} else {})
    requires WithFolder(w0.reg, done + {s}, w0.fs)
          == WithFolder(w0.reg, done, w0.fs) + (if s in w0.reg.sandboxes && DataDir(s) in w0.fs then {s} else {})
    ensures SweepInvariant(w0, failingKills, done + {s}, ReapInsideTmp(w, s, failingKills), Some(stuck))
  {
    var evicted := Killable(w0.reg, done, failingKills) - {stuck};
    assert stuck in done && s != stuck && s !in evicted;
    if s in w0.reg.sandboxes && w0.reg.sandboxes[s] !in failingKills {
      EvictStep(w0.reg, evicted, s);
      assert evicted + {s} == Killable(w0.reg, done + {s}, failingKills) - {stuck};
    }
  }

  /**
   * When every idle session has been swept: nothing was uploaded and the registry is consistent;
   * with no idle session owning a folder, exactly the reapable sessions are evicted and the
   * folders are untouched; otherwise TMP_DIR is empty and one session owning a folder is kept,
   * every other reapable one evicted.
   */
  lemma SweepEnd(w0: World, failingKills: set<Handle>, now: nat, w: World, stuck: Option<string>)
    requires SweepInvariant(w0, failingKills, IdleSessions(w0.reg.metadata, now), w, stuck)
    ensures var reapable := Reapable(w0.reg, now, failingKills);
      var blocked := WithFolder(w0.reg, IdleSessions(w0.reg.metadata, now), w0.fs);
      && w.uploads == w0.uploads
      && Valid(w.reg)
      && (blocked == {} ==> w.fs == w0.fs && w.reg == Evict(w0.reg, reapable))
      && (blocked != {} ==>
            w.fs == map[] && exists x :: x in blocked && w.reg == Evict(w0.reg, reapable - {x}))
  {
    var reapable := Reapable(w0.reg, now, failingKills);
    if stuck.Some? {
      EvictKeepsValid(w0.reg, reapable - {stuck.value});
    } else {
      EvictKeepsValid(w0.reg, reapable);
    }
  }
}

=== FILE: Tracker.dfy ===
/**
 * The interaction tracker: per session, the interaction ids in the order they were first
 * registered (the keys of `INTERACTION_IDS_PER_SESSION_HASH[session]`), and the drain that hands
 * the ones with a data directory to the upload.
 */
module Tracker {
  import opened Wrappers
  import opened Paths
  import opened Records
  import opened Upload

  /** `tracker[session][id] = True`: a new id goes last, a known one keeps its place. */
  function Register(ids: seq<string>, id: string): (r: seq<string>)
    ensures NoDuplicates(ids) ==> NoDuplicates(r)
    ensures forall x :: x in r <==> x in ids || x == id
    ensures |ids| <= |r| && r[..|ids|] == ids
  {
    if id in ids then ids else ids + [id]
  }

  /**
   * The tracker after `interact_with_agent` registers an id for a session: the session is
   * tracked, its list gains the id, and every other session's list is unchanged.
   */
  function Track(tracker: map<string, seq<string>>, sessionHash: string, id: string)
    : (t: map<string, seq<string>>)
    ensures t.Keys == tracker.Keys + {sessionHash}
    ensures id in t[sessionHash]
    ensures sessionHash in tracker ==> tracker[sessionHash] <= t[sessionHash]
    ensures forall s :: s in tracker && s != sessionHash ==> t[s] == tracker[s]
  {
    tracker[sessionHash := Register(if sessionHash in tracker then tracker[sessionHash] else [], id)]
  }

  /** The ids, in tracking order, whose data directory exists (`withDir`) or does not. */
  function Select(ids: seq<string>, fs: FileSystem, withDir: bool): seq<string>
  {
    if ids == [] then []
    else
      var last := ids[|ids| - 1];
      Select(ids[..|ids| - 1], fs, withDir) + (if (DataDir(last) in fs) == withDir then [last] else [])
  }

  /** An id is selected exactly when it is tracked and its folder's presence is the one asked for. */
  lemma {:induction false} SelectMembers(ids: seq<string>, fs: FileSystem, withDir: bool)
    ensures forall x :: x in Select(ids, fs, withDir) <==> x in ids && (DataDir(x) in fs) == withDir
  {
    if ids != [] {
      var init, last := ids[..|ids| - 1], ids[|ids| - 1];
      SelectMembers(init, fs, withDir);
      assert ids == init + [last];
    }
  }

  /** `del tracker[session][id]`: the id leaves, the others keep their order. */
  function Without(ids: seq<string>, id: string): seq<string>
  {
    if ids == [] then [] else (if ids[0] == id then [] else [ids[0]]) + Without(ids[1..], id)
  }

  /** The data directories of the given ids, in the same order. */
  function DataDirs(ids: seq<string>): seq<Path> {
    if ids == [] then [] else DataDirs(ids[..|ids| - 1]) + [DataDir(ids[|ids| - 1])]
  }

  /** The k-th data directory is the k-th id's. */
  lemma {:induction false} DataDirsAt(ids: seq<string>)
    ensures |DataDirs(ids)| == |ids|
    ensures forall k :: 0 <= k < |ids| ==> DataDirs(ids)[k] == DataDir(ids[k])
  {
    if ids != [] {
      DataDirsAt(ids[..|ids| - 1]);
    }
  }

  /** Between them, the two selections hold every tracked id exactly as often as the tracker does. */
  lemma {:induction false} SelectPartition(ids: seq<string>, fs: FileSystem)
    ensures multiset(Select(ids, fs, true)) + multiset(Select(ids, fs, false)) == multiset(ids)
  {
    if ids != [] {
      var init, last := ids[..|ids| - 1], ids[|ids| - 1];
      SelectPartition(init, fs);
      assert ids == init + [last];
      assert multiset(ids) == multiset(init) + multiset{last};
    }
  }

  /** Selecting from distinct ids gives distinct ids. */
  lemma {:induction false} SelectNoDuplicates(ids: seq<string>, fs: FileSystem, withDir: bool)
    requires NoDuplicates(ids)
    ensures NoDuplicates(Select(ids, fs, withDir))
  {
    if ids != [] {
      var init, last := ids[..|ids| - 1], ids[|ids| - 1];
      assert NoDuplicates(init) by {
        forall i, j | 0 <= i < j < |init| ensures init[i] != init[j] {
          assert init[i] == ids[i] && init[j] == ids[j];
        }
      }
      SelectNoDuplicates(init, fs, withDir);
      if (DataDir(last) in fs) == withDir {
        assert last !in init by {
          forall k | 0 <= k < |init| ensures init[k] != last {
            assert init[k] == ids[k];
          }
        }
        SelectMembers(init, fs, withDir);
        NoDuplicatesAppend(Select(init, fs, withDir), last);
      }
    }
  }

  /** Appending an element not yet present keeps a sequence free of duplicates. */
  lemma NoDuplicatesAppend(s: seq<string>, x: string)
    requires NoDuplicates(s) && x !in s
    ensures NoDuplicates(s + [x])
  {
    var t := s + [x];
    forall i, j | 0 <= i < j < |t| ensures t[i] != t[j] {
      if j == |s| {
        assert t[i] == s[i];
      } else {
        assert t[i] == s[i] && t[j] == s[j];
      }
    }
  }

  /** Deleting an id from two parts joined is deleting it from each part. */
  lemma {:induction false} WithoutAppend(a: seq<string>, b: seq<string>, id: string)
    ensures Without(a + b, id) == Without(a, id) + Without(b, id)
  {
    if a != [] {
      assert (a + b)[1..] == a[1..] + b;
      WithoutAppend(a[1..], b, id);
    } else {
      assert a + b == b;
    }
  }

  /** Deleting an id that is not there changes nothing. */
  lemma {:induction false} WithoutAbsent(ids: seq<string>, id: string)
    requires id !in ids
    ensures Without(ids, id) == ids
  {
    if ids != [] {
      assert ids[0] in ids;
      WithoutAbsent(ids[1..], id);
    }
  }

  /** Deleting an id that occurs once, between two parts that do not hold it, joins the two parts. */
  lemma WithoutMiddle(before: seq<string>, id: string, after: seq<string>)
    requires id !in before && id !in after
    ensures Without(before + ([id] + after), id) == before + after
  {
    calc {
      Without(before + ([id] + after), id);
    == { WithoutAppend(before, [id] + after, id); }
      Without(before, id) + Without([id] + after, id);
    == { WithoutAbsent(before, id); }
      before + Without([id] + after, id);
    == { assert ([id] + after)[1..] == after; }
      before + Without(after, id);
    == { WithoutAbsent(after, id); }
      before + after;
    }
  }

  /**
   * One step of the drain loop: deleting the i-th tracked id from "the ids before i that stay,
   * then the ids from i on" leaves the ids before i that stay, then the ids after i.
   */
  lemma DrainStep(ids: seq<string>, fs: FileSystem, i: nat)
    requires NoDuplicates(ids) && i < |ids|
    ensures Without(Select(ids[..i], fs, false) + ids[i..], ids[i])
         == Select(ids[..i], fs, false) + ids[i + 1..]
  {
    var x, kept, rest := ids[i], Select(ids[..i], fs, false), ids[i + 1..];
    assert ids[i..] == [x] + rest;
    assert x !in ids[..i] by {
      forall k | 0 <= k < i ensures ids[..i][k] != x {
        assert ids[..i][k] == ids[k];
      }
    }
    assert x !in rest by {
      forall k | 0 <= k < |rest| ensures rest[k] != x {
        assert rest[k] == ids[i + 1 + k];
      }
    }
    SelectMembers(ids[..i], fs, false);
    WithoutMiddle(kept, x, rest);
  }

  /** Selecting from one more id appends that id when its folder's presence is the one asked for. */
  lemma SelectStep(ids: seq<string>, fs: FileSystem, i: nat, withDir: bool)
    requires i < |ids|
    ensures Select(ids[..i + 1], fs, withDir)
         == Select(ids[..i], fs, withDir) + (if (DataDir(ids[i]) in fs) == withDir then [ids[i]] else [])
  {
    assert ids[..i + 1][..i] == ids[..i];
  }

  /** The data directories of a list with one more id end with that id's directory. */
  lemma DataDirsAppend(ids: seq<string>, x: string)
    ensures DataDirs(ids + [x]) == DataDirs(ids) + [DataDir(x)]
  {
    assert (ids + [x])[..|ids|] == ids;
  }

  /**
   * The drain loop taking an id whose folder exists: its data directory is collected, and
   * deleting it from the list leaves the ids that stay followed by the ids not yet looked at.
   */
  lemma DrainTake(ids: seq<string>, fs: FileSystem, i: nat)
    requires NoDuplicates(ids) && i < |ids| && DataDir(ids[i]) in fs
    ensures DataDirs(Select(ids[..i + 1], fs, true)) == DataDirs(Select(ids[..i], fs, true)) + [DataDir(ids[i])]
    ensures Select(ids[..i + 1], fs, false) + ids[i + 1..] == Without(Select(ids[..i], fs, false) + ids[i..], ids[i])
  {
    SelectStep(ids, fs, i, true);
    SelectStep(ids, fs, i, false);
    DataDirsAppend(Select(ids[..i], fs, true), ids[i]);
    DrainStep(ids, fs, i);
  }

  /**
   * The drain loop passing an id whose folder does not exist: nothing is collected, and the id
   * moves from the ids not yet looked at to the ids that stay, leaving the list unchanged.
   */
  lemma DrainKeep(ids: seq<string>, fs: FileSystem, i: nat)
    requires i < |ids| && DataDir(ids[i]) !in fs
    ensures Select(ids[..i + 1], fs, true) == Select(ids[..i], fs, true)
    ensures Select(ids[..i + 1], fs, false) + ids[i + 1..] == Select(ids[..i], fs, false) + ids[i..]
  {
    SelectStep(ids, fs, i, true);
    SelectStep(ids, fs, i, false);
    assert ids[i..] == [ids[i]] + ids[i + 1..];
  }

  /** Before the drain loop looks at any id, nothing is collected and the list is the whole list. */
  lemma DrainStart(ids: seq<string>, fs: FileSystem)
    ensures DataDirs(Select(ids[..0], fs, true)) == []
    ensures Select(ids[..0], fs, false) + ids[0..] == ids
  {
    assert ids[..0] == [];
  }

  /** After the drain loop has looked at every id, the collected and kept lists are the two selections. */
  lemma DrainEnd(ids: seq<string>, fs: FileSystem)
    ensures Select(ids[..|ids|], fs, false) + ids[|ids|..] == Select(ids, fs, false)
    ensures Select(ids[..|ids|], fs, true) == Select(ids, fs, true)
  {
    assert ids[..|ids|] == ids;
  }

  /**
   * A drained id is never drained again: after its folder went to the upload, the ids that stay
   * tracked have no folder in any later file system that only lost folders.
   */
  lemma DrainedNotPassedAgain(ids: seq<string>, fs: FileSystem, later: FileSystem)
    requires later.Keys <= fs.Keys
    ensures forall x :: x !in Select(Select(ids, fs, false), later, true)
    ensures forall x :: x in Select(ids, fs, true) ==> x !in Select(ids, fs, false)
  {
    SelectMembers(ids, fs, false);
    SelectMembers(ids, fs, true);
    SelectMembers(Select(ids, fs, false), later, true);
  }

  /**
   * When the tracked ids are distinct names without separators and every folder is readable,
   * the drain hands the upload a list its copy loop gets through.
   */
  lemma DrainStagingSucceeds(ids: seq<string>, fs: FileSystem)
    requires NoDuplicates(ids)
    requires forall x :: x in ids ==> x != [] && '/' !in x && x != "." && x != ".."
    requires forall p :: p in fs ==> Readable(fs[p])
    ensures CanStage(DataDirs(Select(ids, fs, true)), fs, map[])
  {
    var drained := Select(ids, fs, true);
    var dirs := DataDirs(drained);
    DataDirsAt(drained);
    SelectNoDuplicates(ids, fs, true);
    SelectMembers(ids, fs, true);
    forall i, j | 0 <= i < j < |dirs| ensures dirs[i] != dirs[j] {
      DataDirInjective(drained[i], drained[j]);
    }
    forall p | p in dirs ensures p in fs && Readable(fs[p]) {
      var k :| 0 <= k < |dirs| && dirs[k] == p;
      assert drained[k] in drained;
    }
    forall i, j | 0 <= i < j < |dirs| ensures Basename(dirs[i]) != Basename(dirs[j]) {
      assert drained[i] in drained && drained[j] in drained;
      BasenameOfDataDir(drained[i]);
      BasenameOfDataDir(drained[j]);
    }
  }

  /**
   * An interaction the user did not consent to store gets no folder, so whatever the session's
   * tracked ids are, the drain never hands it to the upload and it stays tracked.
   */
  lemma UnconsentedNeverDrained(ids: seq<string>, fs: FileSystem, id: string, task: string, run: AgentRun,
                                summary: string)
    requires DataDir(id) !in fs
    ensures var fs' := StoreFolder(fs, DataDir(id), task, false, run, summary);
      && id !in Select(ids, fs', true)
      && (id in ids ==> id in Select(ids, fs', false))
  {
    var fs' := StoreFolder(fs, DataDir(id), task, false, run, summary);
    SelectMembers(ids, fs', true);
    SelectMembers(ids, fs', false);
  }
}

=== FILE: Upload.dfy ===
/**
 * `upload_to_hf_and_remove`: every input folder is scanned, copied into a fresh staging directory
 * when its recorded task is not an example, and removed; then the staging directory is uploaded
 * as one batch. The first exception stops the pass, leaving the removals already done in place.
 */
module Upload {
  import opened Wrappers
  import opened Decimal
  import opened Paths
  import opened Records

  /** The dataset the batches go to. */
  const REPO_ID: string := "smolagents/computer-agent-logs-2"

  /** The message returned after an upload of `count` input folders. */
  function UploadMessage(count: nat): string {
    "Successfully uploaded " + NatToString(count) + " folders to " + REPO_ID
  }

  /** The state of the copy loop when it stops: the folders left, the batch staged, the exception raised. */
  datatype Staging = Staging(fs: FileSystem, staged: Batch, error: Option<Error>)

  /** The effect of one whole call: the folders left, the batch uploaded if any, what is returned. */
  datatype UploadOutcome = UploadOutcome(fs: FileSystem, uploaded: Option<Batch>, result: Result<string, Error>)

  /**
   * The copy loop over `paths`, one folder at a time: read `metadata.jsonl` if the folder has one,
   * copy the folder under its basename when the task is not an example, then `rmtree` it. A path
   * that is not a folder raises at the `rmtree`, except the working directory, whose removal first
   * deletes every folder below it.
   */
  function StageFolders(paths: seq<Path>, fs: FileSystem, staged: Batch): (o: Staging)
    decreases |paths|
  {
    if paths == [] then Staging(fs, staged, None)
    else
      var p := paths[0];
      if p in fs && !Readable(fs[p]) then Staging(fs, staged, Some(MetadataUnreadable(p)))
      else if p in fs && Eligible(fs[p]) && Basename(p) in staged then Staging(fs, staged, Some(StagingCollision(p)))
      else if p in fs then
        StageFolders(paths[1..], fs - {p}, if Eligible(fs[p]) then staged[Basename(p) := fs[p]] else staged)
      else if p == WORKING_DIR then Staging(map[], staged, Some(WorkingDirectoryNotRemovable))
      else Staging(fs, staged, Some(MissingFolder(p)))
  }

  /** The whole call: the copy loop from an empty staging directory, then `upload_folder`. */
  function UploadToHub(paths: seq<Path>, fs: FileSystem, uploadOk: bool): UploadOutcome {
    var st := StageFolders(paths, fs, map[]);
    if st.error.Some? then UploadOutcome(st.fs, None, Err(st.error.value))
    else if !uploadOk then UploadOutcome(st.fs, None, Err(UploadFailed))
    else UploadOutcome(st.fs, Some(st.staged), Ok(UploadMessage(|paths|)))
  }

  /** The batch appended to the dataset by an outcome: one batch or none. */
  function UploadedBatches(o: UploadOutcome): seq<Batch> {
    if o.uploaded.Some? then [o.uploaded.value] else []
  }

  /**
   * The copy loop gets through every path exactly when the paths are distinct existing folders,
   * each readable, and the folders to be copied have basenames distinct from each other and from
   * what is already staged.
   */
  ghost predicate CanStage(paths: seq<Path>, fs: FileSystem, staged: Batch) {
    && NoDuplicates(paths)
    && (forall p :: p in paths ==> p in fs && Readable(fs[p]))
    && (forall p :: p in paths && p in fs && Eligible(fs[p]) ==> Basename(p) !in staged)
    && (forall i, j ::
          (0 <= i < j < |paths| && paths[i] in fs && paths[j] in fs && Eligible(fs[paths[i]]) && Eligible(fs[paths[j]]))
          ==> Basename(paths[i]) != Basename(paths[j]))
  }

  /** The staging condition, step by step: the first path is fine and the rest can be staged after it. */
  lemma CanStageStep(paths: seq<Path>, fs: FileSystem, staged: Batch)
    requires paths != [] && paths[0] in fs && Readable(fs[paths[0]])
    requires !(Eligible(fs[paths[0]]) && Basename(paths[0]) in staged)
    ensures var p := paths[0];
      CanStage(paths, fs, staged) <==>
      CanStage(paths[1..], fs - {p}, if Eligible(fs[p]) then staged[Basename(p) := fs[p]] else staged)
  {
    if CanStage(paths, fs, staged) {
      CanStageTail(paths, fs, staged);
    }
    if CanStage(paths[1..], fs - {paths[0]}, if Eligible(fs[paths[0]]) then staged[Basename(paths[0]) := fs[paths[0]]] else staged) {
      CanStageCons(paths, fs, staged);
    }
  }

  /** `CanStageStep`, left to right. */
  lemma CanStageTail(paths: seq<Path>, fs: FileSystem, staged: Batch)
    requires paths != [] && paths[0] in fs && Readable(fs[paths[0]])
    requires !(Eligible(fs[paths[0]]) && Basename(paths[0]) in staged)
    requires CanStage(paths, fs, staged)
    ensures var p := paths[0];
      CanStage(paths[1..], fs - {p}, if Eligible(fs[p]) then staged[Basename(p) := fs[p]] else staged)
  {
    var p := paths[0];
    var fs', staged' := fs - {p}, if Eligible(fs[p]) then staged[Basename(p) := fs[p]] else staged;
    var tail := paths[1..];
    forall i, j | 0 <= i < j < |tail| ensures tail[i] != tail[j] {
      assert tail[i] == paths[i + 1] && tail[j] == paths[j + 1];
    }
    forall q | q in tail ensures q in fs' && fs'[q] == fs[q] {
      var k :| 0 <= k < |tail| && tail[k] == q;
      assert paths[k + 1] == q && paths[0] == p;
    }
    forall q | q in tail && q in fs' && Eligible(fs'[q]) ensures Basename(q) !in staged' {
      var k :| 0 <= k < |tail| && tail[k] == q;
      assert paths[k + 1] == q;
    }
    forall i, j | 0 <= i < j < |tail| && tail[i] in fs' && tail[j] in fs'
        && Eligible(fs'[tail[i]]) && Eligible(fs'[tail[j]])
      ensures Basename(tail[i]) != Basename(tail[j])
    {
      assert tail[i] == paths[i + 1] && tail[j] == paths[j + 1];
    }
  }

  /** `CanStageStep`, right to left. */
  lemma CanStageCons(paths: seq<Path>, fs: FileSystem, staged: Batch)
    requires paths != [] && paths[0] in fs && Readable(fs[paths[0]])
    requires !(Eligible(fs[paths[0]]) && Basename(paths[0]) in staged)
    requires var p := paths[0];
      CanStage(paths[1..], fs - {p}, if Eligible(fs[p]) then staged[Basename(p) := fs[p]] else staged)
    ensures CanStage(paths, fs, staged)
  {
    var p := paths[0];
    var fs', staged' := fs - {p}, if Eligible(fs[p]) then staged[Basename(p) := fs[p]] else staged;
    var tail := paths[1..];
    forall q | q in paths ensures q in fs && Readable(fs[q]) {
      if q != p {
        assert q in tail;
        assert q in fs' && fs'[q] == fs[q];
      }
    }
    forall i, j | 0 <= i < j < |paths| ensures paths[i] != paths[j] {
      if i == 0 {
        assert paths[j] == tail[j - 1] && tail[j - 1] in tail;
        assert paths[j] in fs' && p !in fs';
      } else {
        assert paths[i] == tail[i - 1] && paths[j] == tail[j - 1];
        assert tail[i - 1] != tail[j - 1];
      }
    }
    forall q | q in paths && q in fs && Eligible(fs[q]) ensures Basename(q) !in staged {
      if q != p {
        assert q in tail;
      }
    }
    forall i, j | 0 <= i < j < |paths| && paths[i] in fs && paths[j] in fs
        && Eligible(fs[paths[i]]) && Eligible(fs[paths[j]])
      ensures Basename(paths[i]) != Basename(paths[j])
    {
      assert paths[j] == tail[j - 1];
      if i > 0 {
        assert paths[i] == tail[i - 1];
      }
    }
  }

  /** The copy loop raises nothing exactly when `CanStage` holds. */
  lemma {:induction false} StageSucceedsIff(paths: seq<Path>, fs: FileSystem, staged: Batch)
    ensures StageFolders(paths, fs, staged).error.None? <==> CanStage(paths, fs, staged)
    decreases |paths|
  {
    if paths != [] {
      var p := paths[0];
      if p in fs && Readable(fs[p]) && !(Eligible(fs[p]) && Basename(p) in staged) {
        CanStageStep(paths, fs, staged);
        StageSucceedsIff(paths[1..], fs - {p}, if Eligible(fs[p]) then staged[Basename(p) := fs[p]] else staged);
      } else {
        assert p in paths;
      }
    }
  }

  /** When the copy loop gets through, every input folder existed and is gone, and nothing else is touched. */
  lemma {:induction false} StageRemovesInputs(paths: seq<Path>, fs: FileSystem, staged: Batch)
    requires StageFolders(paths, fs, staged).error.None?
    ensures forall p :: p in paths ==> p in fs
    ensures StageFolders(paths, fs, staged).fs == fs - (set p | p in paths)
    decreases |paths|
  {
    if paths != [] {
      var p := paths[0];
      var fs', staged' := fs - {p}, if Eligible(fs[p]) then staged[Basename(p) := fs[p]] else staged;
      StageRemovesInputs(paths[1..], fs', staged');
      assert forall q :: q in paths <==> q == p || q in paths[1..];
      forall q | q in paths[1..] ensures q in fs {
        assert q in fs';
      }
    }
  }

  /**
   * When the copy loop gets through, the staging directory holds, under its basename, exactly the
   * folders whose task is not an example, besides what was already staged.
   */
  lemma {:induction false} StageCollects(paths: seq<Path>, fs: FileSystem, staged: Batch)
    requires StageFolders(paths, fs, staged).error.None?
    ensures var o := StageFolders(paths, fs, staged);
      && (forall name :: name in o.staged <==>
            name in staged || exists p :: p in paths && p in fs && Eligible(fs[p]) && Basename(p) == name)
      && (forall p :: p in paths && p in fs && Eligible(fs[p]) ==> o.staged[Basename(p)] == fs[p])
      && (forall name :: name in staged ==> o.staged[name] == staged[name])
    decreases |paths|
  {
    if paths != [] {
      var p := paths[0];
      var fs', staged' := fs - {p}, if Eligible(fs[p]) then staged[Basename(p) := fs[p]] else staged;
      StageSucceedsIff(paths, fs, staged);
      StageCollects(paths[1..], fs', staged');
      assert StageFolders(paths, fs, staged) == StageFolders(paths[1..], fs', staged');
      assert forall q :: q in paths <==> q == p || q in paths[1..];
      forall q | q in paths[1..] ensures q != p && fs'[q] == fs[q] {
        var k :| 0 <= k < |paths[1..]| && paths[1..][k] == q;
        assert paths[k + 1] == q;
      }
    }
  }

  /** Whatever happens, the copy loop creates no folder and changes no folder's contents. */
  lemma {:induction false} StageOnlyRemoves(paths: seq<Path>, fs: FileSystem, staged: Batch)
    ensures var o := StageFolders(paths, fs, staged);
      o.fs.Keys <= fs.Keys && forall p :: p in o.fs ==> o.fs[p] == fs[p]
    decreases |paths|
  {
    if paths != [] {
      var p := paths[0];
      if p in fs && Readable(fs[p]) && !(Eligible(fs[p]) && Basename(p) in staged) {
        StageOnlyRemoves(paths[1..], fs - {p}, if Eligible(fs[p]) then staged[Basename(p) := fs[p]] else staged);
      }
    }
  }

  /**
   * A call whose copy loop gets through removes every input folder even when `upload_folder`
   * then fails, uploads exactly the folders whose task is not an example, and reports the number
   * of input folders, staged or not.
   */
  lemma UploadRemovesInputs(paths: seq<Path>, fs: FileSystem, uploadOk: bool)
    requires CanStage(paths, fs, map[])
    ensures var o := UploadToHub(paths, fs, uploadOk);
      && o.fs == fs - (set p | p in paths)
      && (uploadOk ==>
            && o.result == Ok(UploadMessage(|paths|))
            && o.uploaded.Some?
            && (forall name :: name in o.uploaded.value <==>
                  exists p :: p in paths && p in fs && Eligible(fs[p]) && Basename(p) == name)
            && (forall p :: p in paths && Eligible(fs[p]) ==> o.uploaded.value[Basename(p)] == fs[p]))
      && (!uploadOk ==> o.result == Err(UploadFailed) && o.uploaded.None?)
  {
    StageSucceedsIff(paths, fs, map[]);
    StageRemovesInputs(paths, fs, map[]);
    StageCollects(paths, fs, map[]);
  }

  /** An empty input stages nothing; the empty staging directory is still uploaded. */
  lemma EmptyUploadSendsEmptyBatch(fs: FileSystem)
    ensures UploadToHub([], fs, true) == UploadOutcome(fs, Some(map[]), Ok(UploadMessage(0)))
  {
  }

  /** Calling again with the same non-empty list after a call that got through raises: the folders are gone. */
  lemma RetryAfterUploadRaises(paths: seq<Path>, fs: FileSystem, uploadOk: bool, uploadOk2: bool)
    requires paths != []
    requires StageFolders(paths, fs, map[]).error.None?
    ensures UploadToHub(paths, UploadToHub(paths, fs, uploadOk).fs, uploadOk2).result.Err?
  {
    StageRemovesInputs(paths, fs, map[]);
    StageCollects(paths, fs, map[]);
    var fs' := UploadToHub(paths, fs, uploadOk).fs;
    assert paths[0] in paths;
    assert paths[0] !in fs';
    StageSucceedsIff(paths, fs', map[]);
  }

  /** The single-character paths `for folder_path in "<string>"` walks through. */
  function CharPaths(p: Path): (ps: seq<Path>)
    ensures |ps| == |p|
  {
    seq(|p|, i requires 0 <= i < |p| => [p[i]])
  }

  /**
   * Handing a data-directory string to the upload as if it were a list walks its characters; the
   * first is ".", the working directory, so every folder below it is deleted and the call raises.
   */
  lemma UploadOfPathStringWipes(name: string, fs: FileSystem, uploadOk: bool)
    requires forall p :: p in fs ==> InTmpDir(p)
    ensures UploadToHub(CharPaths(DataDir(name)), fs, uploadOk)
         == UploadOutcome(map[], None, Err(WorkingDirectoryNotRemovable))
  {
    var ps := CharPaths(DataDir(name));
    assert ps[0] == WORKING_DIR;
    assert WORKING_DIR !in fs;
  }

  /** Passing the data directory as a one-element list removes that folder only. */
  lemma UploadOfOneFolder(name: string, fs: FileSystem, uploadOk: bool)
    requires DataDir(name) in fs && Readable(fs[DataDir(name)])
    ensures var o := UploadToHub([DataDir(name)], fs, uploadOk);
      && o.fs == fs - {DataDir(name)}
      && (uploadOk ==> o.result.Ok?)
  {
    var p := DataDir(name);
    assert StageFolders([p][1..], fs - {p}, if Eligible(fs[p]) then map[Basename(p) := fs[p]] else map[]).error.None?;
  }
}

=== FILE: Wrappers.dfy ===
/** Small value types shared by every module of the model. */
module Wrappers {

  /** A value that may be absent: a dictionary lookup, an optional field. */
  datatype Option<+T> = None | Some(value: T)

  /** The outcome of an operation that either returns normally or raises. */
  datatype Result<+T, +E> = Ok(value: T) | Err(error: E)

  /** True when no element of `s` occurs twice (the keys of a dictionary, kept in order). */
  predicate NoDuplicates<T(==)>(s: seq<T>) {
    forall i, j :: 0 <= i < j < |s| ==> s[i] != s[j]
  }
}
